=== FILE: README.md ===
# Agro-tourism certification portal — a Dafny model of its form logic

The portal lets a farm apply for the agro-tourism certification. There are two
ways in:

- a four-step application wizard: basic data, eligibility checklist,
  self-assessment and confirmation;
- a single self-evaluation page built on a catalogue of twenty questions.

Administrators then review and filter the applications.

This project models the decision logic behind those screens. Each state is an
immutable record, and each handler is a pure function from one state to the
next.

| module | file | models |
|---|---|---|
| `Web` | web.dfy | the browser platform the handlers rely on: JavaScript numbers (NaN, ±Infinity, finite values as exact reals), `parseFloat`, `n \|\| 0`, `toFixed(1)` on tenths, `trim`, `includes`, `startsWith`, the `File` record, the score-text check shared by two pages, and a sum over an object's values |
| `Seqs` | seqs.dfy | `Array.prototype.filter`, removal by value and by position, the membership toggle, and subsequences |
| `Evaluation` | evaluation.dfy | the catalogue of five dimensions and twenty questions, the selection by certification type, and the total of the self-scores |
| `ScoreSelector` | score_selector.dfy | the score input that clamps into [0, 5], and the quick-select buttons |
| `ApplicationWizard` | application_wizard.dfy | the form record, the shallow-merge update, the step machine 1..4, the draft in one storage slot, and submit and reset |
| `FormStep1` | form_step1.dfy | the categories, the specialty and Plus toggles, and the specialty gate |
| `FormStep2` | form_step2.dfy | the checklist, the documents, and the checklist gate |
| `FormStep3` | form_step3.dfy | the section assembly, the answer handlers (score, slider, note, files), and the count that gates the next step |
| `FormStep4` | form_step4.dfy | the summary counts, the total score, and the confirmation gate |
| `SelfEvaluation` | self_evaluation.dfy | the answers kept one per available question, the single-field update, the evidence check on submission, and the saved form |
| `AdminReview` | admin_review.dfy | the reviewer's score and comment entry, the total, and the decision with its note |
| `AdminDashboard` | admin_dashboard.dfy | the application filters and their reset |
| `PhotoUpload` | photo_upload.dfy | the count, type and size checks on a photo selection, and photo removal |

Dependencies the handlers cannot compute are parameters:

- the clock (`currentYear`, `today`);
- whether browser storage accepts a write (`storageFull`);
- the object-URL factory (`urlOf`);
- the user's answer to the confirmation dialog (`confirmed`).

The code deliberately uses several policies that disagree with each other. The
model reproduces each one as written:

- **Fifth dimension.** The wizard shows the fifth section to categories 1 and 2,
  matched by substring. The catalogue restricts questions q17–q20 to types 3
  and 4.
- **Out-of-range scores.** The wizard and the review page reject such a score.
  The self-evaluation score input clamps it instead.
- **What "answered" means.** The wizard counts answer keys with a non-empty
  score. The self-evaluation page counts answers with non-blank evidence.
- **Fixed summary.** The wizard's summary always shows 17 questions and a
  maximum of 85.

Some behaviours of the code are easy to misread; the model follows the code
as written:

- **No gate in step 3's submit handler.** Step 3's `handleSubmit` calls
  `nextStep` unconditionally; only the button's `disabled` test gates it.
  `FormStep3.Advance` models that test as written: it counts scored answer
  keys, so it can let the wizard past step 3 with a question shown but
  unscored (see Findings). `FormStep3.AdvanceWhenAllScored` is the gate the
  progress text `已完成 answered / total 題` (FormStep3.tsx:263) suggests,
  and opens exactly when every question shown is scored.
- **Reset shows every year.** The dashboard opens with the year filter at
  "2025", but its reset button sets the year to "all". The reset therefore
  shows applications from every year, not only the default ones.
- **Amendment note not trimmed.** A decision to ask for amendments needs a note
  that is not the empty string. A note of spaces passes.
- **Repeated add-on keys.** A Plus key that occurs twice in `plusCategories`
  gives its section twice. The toggle in step 1 never produces such a list.
- **Self-evaluation effect order.** On mount the answer initialisation runs
  first, then the draft load. When the loaded type differs from the starting
  one, the initialisation runs once more.
- **`parseFloat` is defined, not abstract.** It skips leading white space,
  reads an optional sign, `Infinity`, or the longest decimal literal with an
  optional exponent, and gives its exact value. Question and item ids are
  computed from their numbers ("q" plus the numeral, or a two-digit numeral in
  the wizard). Both agree with the literal catalogue.

## Model

| member | source | states |
|---|---|---|
| Web.Or0 | src/components/wizard/FormStep4.tsx:22 | `n \|\| 0` is never NaN: NaN becomes 0, every other number is kept |
| Web.AddCommutesAndAssociates | src/components/pages/AdminReviewPage.tsx:52-56 | number addition is commutative and associative |
| Web.SumRemove | src/components/pages/AdminReviewPage.tsx:52-56 | any value can be taken out of a sum over an object and added back last, so the sum does not depend on key order |
| Web.SumPut | src/components/wizard/FormStep4.tsx:21-24 | storing a value under a key replaces that key's term in the sum; for a new key the sum grows by the new term |
| Web.TrimEmptyIffBlank | src/pages/SelfEvaluation.tsx:105-107 | `s.trim()` is empty exactly when `s` is white space only |
| Web.IncludesIffOccurs | src/components/pages/AdminDashboard.tsx:98-100 | `s.includes(sub)` holds exactly when `sub` occurs at some position of `s` |
| Web.ParseFloatNaNIff | src/components/ScoreSelector.tsx:30-32 | `parseFloat` gives NaN exactly when no number or `Infinity` follows the white space and sign, so in particular for the empty text |
| Web.ParseDecimal | src/components/wizard/FormStep3.tsx:181-182 | `parseFloat` of a plain decimal `w.d` is its exact value |
| Web.ParseToFixed1 | src/components/wizard/FormStep3.tsx:198 | parsing the text `toFixed(1)` writes for a number of tenths gives back that number |
| Web.SliderTextIsScoreText | src/components/wizard/FormStep3.tsx:323-328 | every value of the 0..5 slider with step 0.1, written with one decimal, passes the score check |
| Web.SumBounded | src/components/wizard/FormStep4.tsx:21-24 | values that each lie in [0, hi] sum to a finite total in [0, hi per value] |
| Web.SumSingleton | src/components/pages/AdminReviewPage.tsx:49-59 | the sum over one finite value is that value |
| Seqs.FilterIsSubsequence | src/components/pages/AdminDashboard.tsx:95-102 | `filter` keeps the kept elements in their original order |
| Seqs.FilterMonotone | src/components/pages/AdminDashboard.tsx:95-102 | a predicate implied by another keeps everything the other keeps, in order |
| Seqs.FilterOutCounts | src/components/wizard/FormStep2.tsx:33-35 | filtering out `x` keeps every other element exactly as often as it occurs |
| Seqs.RemoveAll | src/components/wizard/FormStep2.tsx:33-35 | `filter(i => i !== x)` drops every occurrence of `x` and keeps every occurrence of every other element |
| Seqs.RemoveAllKeepsOrder | src/components/wizard/FormStep2.tsx:33-35 | the elements kept stay in their original order |
| Seqs.RemoveAt | src/components/PhotoUpload.tsx:69 | removal by index drops exactly that position, keeps the rest in order, and is a no-op for an index out of range |
| Seqs.Toggle | src/components/wizard/FormStep1.tsx:62-69 | the toggle flips the membership of `x` and no other element's |
| Seqs.ToggleKeepsOrder | src/components/wizard/FormStep1.tsx:64-68 | toggling an absent element appends it at the end; toggling a present one removes all its occurrences and keeps every other occurrence, in order |
| Seqs.ToggleTwiceRestores | src/components/wizard/FormStep1.tsx:71-78 | toggling an absent element twice restores the list exactly |
| Seqs.TogglePreservesNoDup | src/components/wizard/FormStep1.tsx:71-78 | toggling never introduces a repeated element |
| Evaluation.QuestionIdInjective | src/types/evaluation.ts:67-318 | question ids "q1"… are equal exactly when their numbers are |
| Evaluation.AllQuestionsAreTheDimensions | src/types/evaluation.ts:324 | flattening the five dimensions of four questions gives the catalogue in display order |
| Evaluation.CatalogueShape | src/types/evaluation.ts:60-320 | twenty questions q1..q20, numbered in order, with distinct ids; q1–q16 are unrestricted and q17–q20 are restricted to types 3 and 4 |
| Evaluation.QuestionsFor | src/types/evaluation.ts:323-328 | a question is selected exactly when it is in the catalogue and unrestricted or restricted to a list containing the type; unrestricted questions are selected for every type |
| Evaluation.QuestionsForKeepsCatalogueOrder | src/types/evaluation.ts:324-327 | the selection is an order-preserving subsequence of the catalogue |
| Evaluation.QuestionsForTypes1And2 | src/types/evaluation.ts:266-328 | types 1 and 2 get exactly the first sixteen questions |
| Evaluation.QuestionsForTypes3And4 | src/types/evaluation.ts:266-328 | types 3 and 4 get all twenty questions |
| Evaluation.TotalScoreAppend | src/types/evaluation.ts:331-333 | the total of a concatenation is the sum of the totals |
| Evaluation.TotalScoreBounded | src/types/evaluation.ts:331-333 | self-scores in [0, 5] give a total in [0, 5 per answer] |
| ScoreSelector.Clamp | src/components/ScoreSelector.tsx:30-39 | the emitted score lies in [0, 5]; NaN emits 0; ±Infinity emit the nearer bound; a finite value emits the point of [0, 5] nearest to it |
| ScoreSelector.ClampKeepsInRange | src/components/ScoreSelector.tsx:33-39 | a value already in [0, 5] is emitted unchanged |
| ScoreSelector.ClampIdempotent | src/components/ScoreSelector.tsx:33-39 | clamping an emitted score again returns it unchanged |
| ScoreSelector.HandleScoreChange | src/components/ScoreSelector.tsx:21-40 | every text emits a score in [0, 5]; empty text and NaN both emit 0, not an unset score |
| ScoreSelector.AcceptedTextPassesThrough | src/components/ScoreSelector.tsx:21-40 | text the wizard accepts emits exactly the value the wizard stores |
| ScoreSelector.RejectedTextIsClamped | src/components/ScoreSelector.tsx:30-37 | text the wizard rejects still emits 5 above the range, 0 below it, and 0 when it is not a number |
| ScoreSelector.OneDecimalTextPassesThrough | src/components/ScoreSelector.tsx:21-40 | one-decimal text for 0..5 emits the number it denotes |
| ScoreSelector.QuickSelect | src/components/ScoreSelector.tsx:105-125 | the three buttons emit 0, 2.5 and 5, all within range |
| ScoreSelector.QuickSelectIsClampFixed | src/components/ScoreSelector.tsx:42-44 | a quick-selected score is unchanged by the clamp of typed input |
| ApplicationWizard.DefaultForm | src/components/ApplicationWizard.tsx:44-60 | the empty form has no answers, no documents, no confirmation, and the current year |
| ApplicationWizard.UpdateIsShallowMerge | src/components/ApplicationWizard.tsx:90-92 | each field the patch carries takes the patch's value; every other field is unchanged |
| ApplicationWizard.UpdatesCompose | src/components/ApplicationWizard.tsx:90-92 | two successive updates equal one update with the combined patch, the later patch winning |
| ApplicationWizard.UpdateIdempotent | src/components/ApplicationWizard.tsx:90-92 | applying the same patch twice equals applying it once |
| ApplicationWizard.NoChangeIsIdentity | src/components/ApplicationWizard.tsx:90-92 | the empty patch changes nothing |
| ApplicationWizard.Initial | src/components/ApplicationWizard.tsx:42-43 | the wizard opens at step 1, not submitted |
| ApplicationWizard.NextStep | src/components/ApplicationWizard.tsx:107-113 | the step goes up only below 4 and stays in 1..4; nothing else changes |
| ApplicationWizard.PrevStep | src/components/ApplicationWizard.tsx:114-119 | the step goes down only above 1 and stays in 1..4; nothing else changes |
| ApplicationWizard.StepsUndo | src/components/ApplicationWizard.tsx:107-119 | away from the ends, back undoes forward and forward undoes back |
| ApplicationWizard.StepsSaturate | src/components/ApplicationWizard.tsx:107-119 | forward from step 4 and back from step 1 change nothing |
| ApplicationWizard.WithoutFiles | src/components/ApplicationWizard.tsx:76-81 | the reloaded answers keep the same keys, scores and notes, with no files |
| ApplicationWizard.WithoutAllFiles | src/components/ApplicationWizard.tsx:69-82 | a reloaded form has no documents and answers without files; every other field is kept |
| ApplicationWizard.Serialize | src/components/ApplicationWizard.tsx:94-101 | the saved draft carries every field |
| ApplicationWizard.LoadDraft | src/components/ApplicationWizard.tsx:69-82 | a loaded draft sets documents to [] and the answers (or {} when absent) without files; each other field takes the draft's value when present and keeps its value otherwise |
| ApplicationWizard.LoadAfterSave | src/components/ApplicationWizard.tsx:63-101 | loading a just-saved draft gives back the saved form without its files, whatever form it is loaded into |
| ApplicationWizard.Mount | src/components/ApplicationWizard.tsx:63-88 | a parsable draft is loaded into the form; an empty or unparsable slot leaves the wizard unchanged |
| ApplicationWizard.SaveDraft | src/components/ApplicationWizard.tsx:94-105 | the slot receives the serialised form unless storage refuses the write; nothing else changes |
| ApplicationWizard.ReopenAfterSave | src/components/ApplicationWizard.tsx:63-105 | saving and reopening restores the form without files |
| ApplicationWizard.HandleSubmit | src/components/ApplicationWizard.tsx:121-125 | submitting marks the application submitted and clears the slot, keeping step and form |
| ApplicationWizard.HandleReset | src/components/ApplicationWizard.tsx:127-148 | reset gives step 1, not submitted, the empty form, and an empty slot |
| ApplicationWizard.ResetIdempotent | src/components/ApplicationWizard.tsx:127-148 | resetting twice equals resetting once, and a reset wizard reopens unchanged |
| ApplicationWizard.NoDraftAfterSubmit | src/components/ApplicationWizard.tsx:121-125 | after submitting, reopening starts from the empty form |
| ApplicationWizard.AnsweredCount | src/components/wizard/FormStep4.tsx:18-20 | the number of scored answer keys never exceeds the number of keys |
| FormStep1.OfferedAddOnsHaveSections | src/components/wizard/FormStep1.tsx:39-42 | every offered Plus add-on has its own section in step 3 |
| FormStep1.CategoriesAndFifthSection | src/components/wizard/FormStep1.tsx:17-22 | the first two categories get the fifth section of step 3; the last two do not |
| FormStep1.ToggleSpecialty | src/components/wizard/FormStep1.tsx:62-69 | the specialty list is toggled and every other field is unchanged |
| FormStep1.TogglePlus | src/components/wizard/FormStep1.tsx:71-78 | the add-on list is toggled and every other field is unchanged |
| FormStep1.TogglePlusNeverRepeatsSections | src/components/wizard/FormStep1.tsx:71-78 | add-ons chosen only through the toggle never repeat, so no Plus section is shown twice |
| FormStep1.HandleSubmit | src/components/wizard/FormStep1.tsx:45-57 | without a specialty the wizard stays put; with one it moves to the next step |
| FormStep1.LeavingNeedsSpecialty | src/components/wizard/FormStep1.tsx:45-57 | step 1 is left exactly when at least one specialty is chosen |
| FormStep2.HandleChecklistChange | src/components/wizard/FormStep2.tsx:31-36 | checking appends the item; unchecking removes every occurrence and keeps every other entry, as often as it occurs and in order; only the checklist changes |
| FormStep2.ClickChecklist | src/components/wizard/FormStep2.tsx:80-81 | a checkbox click toggles its item |
| FormStep2.ClickKeepsChecklistWellFormed | src/components/wizard/FormStep2.tsx:20-36 | clicks keep the checklist made of distinct checklist items |
| FormStep2.CanAdvanceIffAllChecked | src/components/wizard/FormStep2.tsx:161 | on such a checklist the length test passes exactly when all three items are checked |
| FormStep2.Advance | src/components/wizard/FormStep2.tsx:47-50 | the step changes exactly when the button is enabled, to the next step, and nothing else changes |
| FormStep2.HandleFileChange | src/components/wizard/FormStep2.tsx:38-45 | the chosen files are appended to the documents and their names to the list shown, in order; no file list changes nothing |
| FormStep2.UploadsTrackDocuments | src/components/wizard/FormStep2.tsx:38-45 | the names shown are always those of the documents added since the step opened |
| FormStep3.PlusSection | src/components/wizard/FormStep3.tsx:137-156 | exactly the two add-on keys have a section, of three questions each |
| FormStep3.PlusSectionsFollowKnownKeys | src/components/wizard/FormStep3.tsx:168-174 | the Plus part is one section per known key, in key order |
| FormStep3.UnknownKeySkipped | src/components/wizard/FormStep3.tsx:169-173 | a key without a section adds nothing wherever it appears |
| FormStep3.FifthNotAmongPlus | src/components/wizard/FormStep3.tsx:168-174 | no Plus section is the fifth section |
| FormStep3.AssembleSections | src/components/wizard/FormStep3.tsx:158-177 | the four base sections come first; then the fifth section for categories naming class 1 or 2, and no fifth section anywhere otherwise; then one Plus section per known add-on key, in key order |
| FormStep3.LacksFirstTwoClasses | src/components/wizard/FormStep1.tsx:17-22 | a category opening with a class other than the first two, with no other class marker, gets no fifth section |
| FormStep3.TotalQuestionsCount | src/components/wizard/FormStep3.tsx:244 | `totalQuestions` is 13, plus 4 with the fifth section, plus 3 per known add-on key |
| FormStep3.NoRepeatedPlusSection | src/components/wizard/FormStep3.tsx:168-174 | add-on keys without repetition give Plus sections without repetition |
| FormStep3.PutAnswer | src/components/wizard/FormStep3.tsx:184-189 | only the given question's answer changes; other answers and form fields are unchanged |
| FormStep3.HandleScoreChange | src/components/wizard/FormStep3.tsx:179-191 | an empty score or a number in [0, 5] is stored, keeping files and note (new answers start empty); any other text leaves the form unchanged |
| FormStep3.HandleSliderChange | src/components/wizard/FormStep3.tsx:193-201 | the slider stores a text that parses to its value, keeping files and note |
| FormStep3.SliderIsAcceptedScoreChange | src/components/wizard/FormStep3.tsx:323-328 | within 0..5 a slider move equals typing the text it writes, which is always accepted |
| FormStep3.HandleNoteChange | src/components/wizard/FormStep3.tsx:203-211 | the note is replaced; score and files are kept |
| FormStep3.HandlersKeepScoresValid | src/components/wizard/FormStep3.tsx:179-211 | the score, slider and note handlers keep every stored score empty or within [0, 5] |
| FormStep3.ScoreEditKeepsScoresValid | src/components/wizard/FormStep3.tsx:179-191 | the score handler alone keeps every stored score valid |
| FormStep3.HandleFileChange | src/components/wizard/FormStep3.tsx:213-224 | the chosen files are appended after the answer's files, in order; no file list changes nothing |
| FormStep3.HandleRemoveFile | src/components/wizard/FormStep3.tsx:226-237 | exactly the file at that index is removed from an existing answer; a question without an answer is left alone |
| FormStep3.RemoveUndoesAdd | src/components/wizard/FormStep3.tsx:213-237 | removing the file just added restores the form |
| FormStep3.CanAdvanceIffAllVisibleScored | src/components/wizard/FormStep3.tsx:244-247 | the corrected gate opens exactly when every question shown has a score |
| FormStep3.Advance | src/components/wizard/FormStep3.tsx:239-247 | as written: the wizard leaves step 3 whenever the scored answer keys are at least as many as the questions shown, and nothing but the step changes |
| FormStep3.AdvanceWhenAllScored | src/components/wizard/FormStep3.tsx:239-247 | corrected: the wizard leaves step 3 exactly when every question shown is scored, and nothing but the step changes |
| FormStep3.StaleKeysOpenGate | src/components/wizard/FormStep3.tsx:245-247 | the count as written opens the gate with a question shown but unscored |
| FormStep3.StaleKeysLeaveStep3 | src/components/wizard/FormStep3.tsx:239-247 | on that form the button as written moves the wizard to step 4 while the corrected gate keeps it on step 3 |
| FormStep3.GatesAgreeWithoutStaleKeys | src/components/wizard/FormStep3.tsx:244-247 | when every scored key is a question shown, the count as written and the corrected gate agree |
| FormStep4.ShownMaximumIsFivePerQuestion | src/components/wizard/FormStep4.tsx:109 | the maximum shown, 85, is five points for each of the 17 questions |
| FormStep4.ShownTotalMatchesStep3 | src/components/wizard/FormStep4.tsx:17 | the fixed 17 equals step 3's count exactly with the fifth section and no known add-on |
| FormStep4.AnsweredIffAllScored | src/components/wizard/FormStep4.tsx:18-20 | the answered count reaches the number of stored answers exactly when every stored answer has a score |
| FormStep4.PointsInRange | src/components/wizard/FormStep4.tsx:21-24 | a stored score counts as a number, never NaN, and a valid one counts between 0 and 5 |
| FormStep4.TotalScoreBounded | src/components/wizard/FormStep4.tsx:21-24 | with valid scores the total lies between 0 and 5 points per stored answer |
| FormStep4.TotalScorePut | src/components/wizard/FormStep4.tsx:21-24 | scoring a question replaces its points in the total; scoring a new question adds its points |
| FormStep4.TotalOfNoAnswers | src/components/wizard/FormStep4.tsx:21-24 | no answers give a total of 0 |
| FormStep4.OnSubmit | src/components/wizard/FormStep4.tsx:26-31 | the wizard is submitted when confirmed and unchanged otherwise |
| FormStep4.SetConfirmed | src/components/wizard/FormStep4.tsx:120 | the checkbox sets the confirmation and nothing else |
| FormStep4.SubmittedOnlyWhenConfirmed | src/components/wizard/FormStep4.tsx:26-31 | the application becomes submitted on this step exactly when confirmed, and the draft is then cleared |
| FormStep4.ConfirmThenSubmit | src/components/wizard/FormStep4.tsx:26-31 | ticking the box and then submitting always submits |
| SelfEvaluation.InitialBasicInfo | src/pages/SelfEvaluation.tsx:22-30 | the page starts at type 1 with no address |
| SelfEvaluation.DefaultAnswer | src/pages/SelfEvaluation.tsx:44-49 | a new answer has blank evidence, no photos and score 0 |
| SelfEvaluation.FirstMatch | src/pages/SelfEvaluation.tsx:43 | `find` returns the first answer for the question, or none |
| SelfEvaluation.InitAnswers | src/pages/SelfEvaluation.tsx:41-52 | exactly one answer per available question, in catalogue order; the first existing answer for it is kept, and a default is made otherwise |
| SelfEvaluation.InitAnswersTakesOrDefaults | src/pages/SelfEvaluation.tsx:42-50 | every answer afterwards is an existing one or a default |
| SelfEvaluation.InitAnswersDropsUnavailable | src/pages/SelfEvaluation.tsx:42-51 | answers for questions no longer available are dropped |
| SelfEvaluation.InitAnswersIdempotent | src/pages/SelfEvaluation.tsx:41-52 | initialising again for the same questions changes nothing |
| SelfEvaluation.InitAnswersNarrowing | src/pages/SelfEvaluation.tsx:41-52 | going through a larger question list loses none of the answers a smaller one needs |
| SelfEvaluation.SwitchingTypesAndBack | src/pages/SelfEvaluation.tsx:41-52 | a detour through type 3 or 4 keeps every answer of any type |
| SelfEvaluation.NarrowingForgetsFifthDimension | src/pages/SelfEvaluation.tsx:41-52 | a detour through type 1 resets the answers to q17–q20 to defaults |
| SelfEvaluation.SetField | src/pages/SelfEvaluation.tsx:73 | only the named field takes the new value |
| SelfEvaluation.UpdateAnswer | src/pages/SelfEvaluation.tsx:70-76 | the answers for the question get the field set; length and all other answers are unchanged |
| SelfEvaluation.UpdateLastWins | src/pages/SelfEvaluation.tsx:70-76 | of two edits of the same field the last wins, and question ids never change |
| SelfEvaluation.UpdateKeepsInitialised | src/pages/SelfEvaluation.tsx:70-76 | edits keep one answer per available question, in order, so re-initialising for the same questions changes nothing |
| SelfEvaluation.HasEvidenceIffNotBlank | src/pages/SelfEvaluation.tsx:105-107 | an answer has evidence exactly when its evidence text is not white space only |
| SelfEvaluation.IncompleteAnswers | src/pages/SelfEvaluation.tsx:105-107 | the incomplete answers are exactly those with blank evidence |
| SelfEvaluation.NoneIncompleteIff | src/pages/SelfEvaluation.tsx:105-112 | no answer is incomplete exactly when every answer has evidence |
| SelfEvaluation.CompletedPlusIncomplete | src/pages/SelfEvaluation.tsx:329 | complete and incomplete answers together are all the answers |
| SelfEvaluation.EnabledMeansComplete | src/pages/SelfEvaluation.tsx:433-436 | with one answer per question, an enabled submit button means the evidence check passes |
| SelfEvaluation.StoredWith | src/pages/SelfEvaluation.tsx:82-87 | the stored form carries the data, the answers, their total and the status |
| SelfEvaluation.SubmitEvaluation | src/pages/SelfEvaluation.tsx:103-140 | any blank evidence aborts with its count; otherwise the form becomes submitted and stored exactly when confirmed and storage accepts it; every failed path leaves the page unchanged |
| SelfEvaluation.MaxPossibleScores | src/pages/SelfEvaluation.tsx:328 | the maximum is 80 for types 1 and 2 and 100 for types 3 and 4 |
| SelfEvaluation.TotalWithinMaximum | src/pages/SelfEvaluation.tsx:327-328 | with one answer per question scored in [0, 5], the total stays within the maximum |
| SelfEvaluation.ChangeType | src/pages/SelfEvaluation.tsx:220-224 | a new type re-initialises the answers for its questions; the same type, or a submitted form, changes nothing |
| SelfEvaluation.SaveDraft | src/pages/SelfEvaluation.tsx:79-100 | the slot receives the form as a draft unless storage refuses it or the form is submitted (no save button then, line 415); the page's status is unchanged |
| SelfEvaluation.EditAnswer | src/pages/SelfEvaluation.tsx:290-317 | the evidence, photo and score inputs apply `updateAnswer` to a form not yet submitted and are inert on a submitted one; only the answers change |
| SelfEvaluation.EditKeepsInitialised | src/pages/SelfEvaluation.tsx:70-76 | editing an answer keeps the page's answers one per question of its type |
| SelfEvaluation.EditAddress | src/pages/SelfEvaluation.tsx:205-212 | the address input sets only the address, and is inert on a submitted form |
| SelfEvaluation.EditApplicationDate | src/pages/SelfEvaluation.tsx:238-246 | the date input sets only the application date, and is inert on a submitted form |
| SelfEvaluation.SubmittedPageLocked | src/pages/SelfEvaluation.tsx:114 | once submitted the form cannot be changed: no input, type choice or save changes the page or the stored form |
| SelfEvaluation.Load | src/pages/SelfEvaluation.tsx:55-67 | a parsable slot supplies data, answers and status; an empty or unparsable slot leaves the page unchanged |
| SelfEvaluation.Open | src/pages/SelfEvaluation.tsx:41-67 | opening initialises, loads, and re-initialises when the loaded type differs |
| SelfEvaluation.OpenWithoutSave | src/pages/SelfEvaluation.tsx:22-52 | with nothing readable stored, the page opens as a draft with sixteen default answers for type 1 |
| SelfEvaluation.OpenAfterSave | src/pages/SelfEvaluation.tsx:55-100 | reopening after a save restores the data and the answers as a draft; a submitted form's stored copy is not overwritten |
| SelfEvaluation.OpenDraftSlot | src/pages/SelfEvaluation.tsx:55-67 | opening on a slot holding a form as a draft gives back its data and answers |
| SelfEvaluation.OpenAfterSubmit | src/pages/SelfEvaluation.tsx:55-140 | reopening after a submission shows the form as submitted with its answers |
| SelfEvaluation.ChangeTypeKeepsInitialised | src/pages/SelfEvaluation.tsx:41-52 | a type change keeps one answer per available question |
| AdminReview.ReviewSectionsMatchSelfAssessment | src/components/pages/AdminReviewPage.tsx:17-34 | the reviewed sections have the titles and question ids of the wizard's first two sections, and the applicant scores are within [0, 5] |
| AdminReview.HandleScoreChange | src/components/pages/AdminReviewPage.tsx:43-47 | an empty score or a number in [0, 5] is stored under its id; anything else changes nothing; nothing else changes |
| AdminReview.ScoreChangeKeepsAccepted | src/components/pages/AdminReviewPage.tsx:43-47 | stored scores stay empty or within [0, 5] |
| AdminReview.HandleCommentChange | src/components/pages/AdminReviewPage.tsx:296 | the comment is stored under its id; nothing else changes |
| AdminReview.CalculateTotalScore | src/components/pages/AdminReviewPage.tsx:49-59 | the no-score branch is taken exactly when no score is filled in; filled-in scores summing to 0 also display 0.0 |
| AdminReview.EnteredInRange | src/components/pages/AdminReviewPage.tsx:52-56 | an accepted score adds between 0 and 5 points |
| AdminReview.TotalScoreBounded | src/components/pages/AdminReviewPage.tsx:49-59 | with accepted scores the total is a number between 0 and 5 per stored score |
| AdminReview.SingleScoreIsTotal | src/components/pages/AdminReviewPage.tsx:49-59 | a single filled-in score is the total |
| AdminReview.ScoreChangeTotal | src/components/pages/AdminReviewPage.tsx:49-59 | typing an accepted non-empty score replaces the item's points in the total, adds them for a new item, and a rejected keystroke leaves the total alone |
| AdminReview.SelectDecision | src/components/pages/AdminReviewPage.tsx:181-212 | a button sets the decision and nothing else |
| AdminReview.HandleNoteChange | src/components/pages/AdminReviewPage.tsx:221 | typing sets the note and nothing else |
| AdminReview.SubmitDecision | src/components/pages/AdminReviewPage.tsx:65-80 | no decision, or an amendment with an empty note, is refused and leaves the review unchanged; otherwise the review becomes completed |
| AdminReview.DecisionsThatGoThrough | src/components/pages/AdminReviewPage.tsx:65-80 | a submission goes through exactly when a decision is chosen and, for an amendment, the note is not empty |
| AdminReview.CompletionComesFromSubmit | src/components/pages/AdminReviewPage.tsx:37-80 | no entry handler completes a review; the submission completes it exactly when it goes through |
| AdminDashboard.Filtered | src/components/pages/AdminDashboard.tsx:95-102 | an application is listed exactly when it passes every filter that is not "all"; the list is never longer than the input |
| AdminDashboard.FilteredKeepsOrder | src/components/pages/AdminDashboard.tsx:95 | the filtered list keeps the order of the full list |
| AdminDashboard.ResetShowsEverything | src/components/pages/AdminDashboard.tsx:229 | after a reset every application is listed |
| AdminDashboard.DefaultShowsThisYear | src/components/pages/AdminDashboard.tsx:15-21 | the list opens on the four applications of 2025; the one of 2024 shows after a reset |
| AdminDashboard.SetFilter | src/components/pages/AdminDashboard.tsx:163-213 | a control changes its own filter and no other |
| AdminDashboard.NarrowerShowsLess | src/components/pages/AdminDashboard.tsx:96-100 | settings that ask at least as much list a sub-list, in order |
| AdminDashboard.ChoosingNarrows | src/components/pages/AdminDashboard.tsx:96-100 | choosing a value for a filter at "all" can only shrink the list |
| AdminDashboard.SearchMatchesSubstrings | src/components/pages/AdminDashboard.tsx:100 | a search matches exactly the applications whose farm or owner name contains it |
| PhotoUpload.AcceptableIff | src/components/PhotoUpload.tsx:34-45 | a file is uploaded exactly when it is an image of at most 5 MiB |
| PhotoUpload.HandleFileSelect | src/components/PhotoUpload.tsx:19-66 | no files does nothing; too many files is refused as a whole; otherwise the acceptable files are appended after the existing photos in order, the rest are skipped, and the list stays within the limit |
| PhotoUpload.UploadStaysWithinLimit | src/components/PhotoUpload.tsx:24-55 | a batch that passes the count check keeps the list within the limit |
| PhotoUpload.AcceptableFilesAllAdded | src/components/PhotoUpload.tsx:34-55 | when every file is acceptable, every file is added |
| PhotoUpload.RemovePhoto | src/components/PhotoUpload.tsx:68-71 | exactly the photo at that position is removed; the others keep their order |
| PhotoUpload.RemoveUndoesAdd | src/components/PhotoUpload.tsx:55-71 | removing the photo just added restores the list |
| PhotoUpload.RemovingMakesRoom | src/components/PhotoUpload.tsx:104 | removing a photo from a list within its limit shows the add button again |
| PhotoUpload.FullListRefusesMore | src/components/PhotoUpload.tsx:24-27 | with the add button hidden, any selection is refused as too many |

## Left out

- Rendering, styling, accordions, toasts, `alert`, progress bars, `window.scrollTo` and `window.location`: presentation without state the handlers read.
- The self-evaluation page's display step (`currentStep`) and its "next" button: they only choose what is shown.
- Asynchronous delays and the `saving`, `submitting` and `uploading` flags: each handler is modelled as one atomic step.
- JSON text and its parsing: the storage slot holds either a parsed value or unparsable text; serialisation is the identity on modelled fields except files: a `File` is written as `{}` and keeps no content, and loading drops every file list.
- Object URLs: `URL.createObjectURL` is the parameter `urlOf`.
- File contents and the `file instanceof File` test, which always holds for files taken from an input.
- The browser's `required` attributes on the step 1 inputs: HTML validation, not handler logic.
- IEEE-754 rounding and overflow: numbers are exact reals, and `parseFloat` reads a decimal literal as its exact value.
- The dashboard's statistics cards, navigation callbacks and the review page's "save" toast: they change no modelled state.
- Mocked sign-in, the network client, help and other static pages: outside the form logic.
- AdminReview.CalculateTotalScore: returns the exact sum instead of its `toFixed(1)` text, because rounding for display is presentation.
- PhotoUpload.HandleFileSelect: states how many files are skipped, not which alert each one raised, because the alerts are presentation.
- ApplicationWizard.LoadDraft: assumes every saved answer carries a score and a note, because the draft it reads back is one the wizard wrote; the source spreads whatever object was parsed.
- ApplicationWizard.AnsweredCount: its own contract bounds the count only; FormStep4.AnsweredIffAllScored states when it reaches the number of answers.

## Findings

| source | as written | input that shows it | evidently intended | confidence | as-written member | corrected member |
|---|---|---|---|---|---|---|
| src/components/wizard/FormStep3.tsx:245-247 | the next-step button is enabled once the number of scored answer keys reaches the number of questions shown, counting keys for questions no longer shown | answer q02–q14 under 第一類：休閒農場, then go back and pick 第三類：農業相關組織: 13 scored keys (q14 no longer shown) against 13 questions shown, with q01 unscored, so 13 ≥ 13 enables the button | the button is enabled once every question shown has a score | not executed | FormStep3.StaleKeysLeaveStep3 | FormStep3.AdvanceWhenAllScored |

=== FILE: admin_dashboard.dfy ===
/** The administrators' list of applications and its filters. */
module AdminDashboard {
  import opened Web
  import opened Seqs

  /** An application as listed. */
  datatype Application = Application(
    id: string,
    farmName: string,
    owner: string,
    city: string,
    category: string,
    specialty: seq<string>,
    status: string,
    submitDate: string,
    year: string)

  /** The filter settings; "all" (and an empty search) let everything
      through. */
  datatype Filters = Filters(year: string, city: string, category: string, status: string, search: string)

  const All := "all"

  /** The settings the list opens with: this year's applications only. */
  const DefaultFilters := Filters("2025", All, All, All, "")

  /** The settings the reset button restores: every year. */
  const ResetFilters := Filters(All, All, All, All, "")

  /** The sample applications the list shows. */
  const SampleApplications: seq<Application> := [
    Application("AG-2025-001", "綠野休閒農場", "王小農", "宜蘭縣", "第一類：休閒農場", ["米", "蔬菜"], "待審查", "2025/10/20", "2025"),
    Application("AG-2025-002", "山林生態園區", "林大明", "苗栗縣", "第二類：農業旅遊經營體", ["林木", "竹林"], "補件中", "2025/10/18", "2025"),
    Application("AG-2025-003", "海洋漁業體驗館", "陳小華", "高雄市", "第二類：農業旅遊經營體", ["漁撈", "娛樂漁業"], "待審查", "2025/10/15", "2025"),
    Application("AG-2025-004", "快樂牧場", "張小美", "臺南市", "第一類：休閒農場", ["畜", "乳製品"], "已通過", "2025/10/12", "2025"),
    Application("AG-2024-088", "老農夫果園", "李老爹", "臺中市", "第一類：休閒農場", ["水果"], "已通過", "2024/11/05", "2024")
  ]

  /** Whether an application passes the filters: year, city and status must
      equal the chosen value, the category must contain it, and a non-empty
      search must occur in the farm name or the owner's name. */
  predicate Keep(f: Filters, a: Application) {
    && (f.year == All || a.year == f.year)
    && (f.city == All || a.city == f.city)
    && (f.category == All || Includes(a.category, f.category))
    && (f.status == All || a.status == f.status)
    && (f.search == "" || Includes(a.farmName, f.search) || Includes(a.owner, f.search))
  }

  /** `filteredApplications`: the applications that pass, in list order. */
  function Filtered(apps: seq<Application>, f: Filters): (r: seq<Application>)
    ensures forall a :: a in r <==> a in apps && Keep(f, a)
    ensures |r| <= |apps|
  {
    Filter(apps, a => Keep(f, a))
  }

  /** The filtered list keeps the order of the full list. */
  lemma FilteredKeepsOrder(apps: seq<Application>, f: Filters)
    ensures IsSubsequence(Filtered(apps, f), apps)
  {
    FilterIsSubsequence(apps, a => Keep(f, a));
  }

  /** After a reset nothing is filtered out. */
  lemma ResetShowsEverything(apps: seq<Application>)
    ensures Filtered(apps, ResetFilters) == apps
  {
    FilterKeepsAll(apps, a => Keep(ResetFilters, a));
  }

  /** The list opens on the four applications of 2025; the one of 2024 shows
      only after the year filter is changed or reset. */
  lemma DefaultShowsThisYear()
    ensures Filtered(SampleApplications, DefaultFilters) == SampleApplications[..4]
    ensures Filtered(SampleApplications, ResetFilters) == SampleApplications
  {
    FilterPrefix(SampleApplications, 4, a => Keep(DefaultFilters, a));
    ResetShowsEverything(SampleApplications);
  }

  datatype FilterField = YearField | CityField | CategoryField | StatusField | SearchField

  /** `setFilters({ ...filters, [field]: value })`. */
  function SetFilter(f: Filters, field: FilterField, value: string): (r: Filters)
    ensures field == YearField ==> r == f.(year := value)
    ensures field == CityField ==> r == f.(city := value)
    ensures field == CategoryField ==> r == f.(category := value)
    ensures field == StatusField ==> r == f.(status := value)
    ensures field == SearchField ==> r == f.(search := value)
  {
    match field
    case YearField => f.(year := value)
    case CityField => f.(city := value)
    case CategoryField => f.(category := value)
    case StatusField => f.(status := value)
    case SearchField => f.(search := value)
  }

  /** `g` asks at least what `f` asks: each of `f`'s constraints is also one
      of `g`'s. */
  predicate Narrower(g: Filters, f: Filters) {
    && (f.year == All || g.year == f.year)
    && (f.city == All || g.city == f.city)
    && (f.category == All || g.category == f.category)
    && (f.status == All || g.status == f.status)
    && (f.search == "" || g.search == f.search)
  }

  /** Narrower settings show a sub-list of what wider ones show. */
  lemma NarrowerShowsLess(apps: seq<Application>, g: Filters, f: Filters)
    requires Narrower(g, f)
    ensures IsSubsequence(Filtered(apps, g), Filtered(apps, f))
  {
    FilterMonotone(apps, a => Keep(g, a), a => Keep(f, a));
  }

  /** Choosing a value for a filter that let everything through narrows the
      settings, so the list can only shrink. */
  lemma ChoosingNarrows(apps: seq<Application>, f: Filters, field: FilterField, value: string)
    requires field == YearField ==> f.year == All
    requires field == CityField ==> f.city == All
    requires field == CategoryField ==> f.category == All
    requires field == StatusField ==> f.status == All
    requires field == SearchField ==> f.search == ""
    ensures Narrower(SetFilter(f, field, value), f)
    ensures IsSubsequence(Filtered(apps, SetFilter(f, field, value)), Filtered(apps, f))
  {
    NarrowerShowsLess(apps, SetFilter(f, field, value), f);
  }

  /** A search text matches exactly the applications whose farm name or owner
      contains it at some position. */
  lemma SearchMatchesSubstrings(a: Application, search: string)
    requires search != ""
    ensures Keep(ResetFilters.(search := search), a) <==>
      (exists i :: 0 <= i && i + |search| <= |a.farmName| && OccursAt(a.farmName, search, i))
      || (exists i :: 0 <= i && i + |search| <= |a.owner| && OccursAt(a.owner, search, i))
  {
    IncludesIffOccurs(a.farmName, search);
    IncludesIffOccurs(a.owner, search);
  }
}

=== FILE: admin_review.dfy ===
/** The reviewer's page for one application: a score and a comment per
    question, the running total, and the final decision with its note. */
module AdminReview {
  import opened Web
  import FormStep3

  /** A question as the reviewer sees it, with the applicant's own score and
      note. */
  datatype ReviewItem = ReviewItem(id: string, applicantScore: real, note: string)

  datatype ReviewSection = ReviewSection(title: string, items: seq<ReviewItem>)

  /** The questions offered for scoring: the first two sections of the
      applicant's self-assessment. */
  const ReviewSections: seq<ReviewSection> := [
    ReviewSection("整體環境與經營", [
      ReviewItem("q01", 4.5, "環境優美，但入口標示不清"),
      ReviewItem("q02", 5.0, "理念清晰完整"),
      ReviewItem("q03", 4.0, "")]),
    ReviewSection("特色資源與設施", [
      ReviewItem("q04", 3.5, "專區範圍較小"),
      ReviewItem("q05", 4.0, ""),
      ReviewItem("q06", 3.0, "休息座椅不足")])
  ]

  function ItemIdsOf(section: ReviewSection): (ids: seq<string>)
    ensures |ids| == |section.items|
    ensures forall i :: 0 <= i < |section.items| ==> ids[i] == section.items[i].id
  {
    seq(|section.items|, i requires 0 <= i < |section.items| => section.items[i].id)
  }

  /** The reviewed sections carry the same titles and question ids as the
      first two sections the applicant filled in, and the applicant's scores
      are valid scores. */
  lemma ReviewSectionsMatchSelfAssessment()
    ensures forall s :: 0 <= s < 2 ==>
      ReviewSections[s].title == FormStep3.BaseSections[s].title
      && ItemIdsOf(ReviewSections[s]) == FormStep3.BaseSections[s].items
    ensures forall s, i :: 0 <= s < 2 && 0 <= i < |ReviewSections[s].items| ==>
      0.0 <= ReviewSections[s].items[i].applicantScore <= 5.0
  {
    assert FormStep3.ItemId(1) == "q01" && FormStep3.ItemId(2) == "q02" && FormStep3.ItemId(3) == "q03";
    assert FormStep3.ItemId(4) == "q04" && FormStep3.ItemId(5) == "q05" && FormStep3.ItemId(6) == "q06";
  }

  datatype ReviewStatus = Pending | Reviewing | Completed

  datatype Decision = Approve | Amend | Reject

  /** The page's state; scores and comments are the text typed per question. */
  datatype Review = Review(
    status: ReviewStatus,
    scores: map<string, string>,
    comments: map<string, string>,
    decision: Option<Decision>,
    decisionNote: string)

  /** The page opens under review, with nothing entered. */
  const InitialReview := Review(Reviewing, map[], map[], None, "")

  /** Every stored score is empty or a number in [0, 5]. */
  ghost predicate ScoresAccepted(scores: map<string, string>) {
    forall k :: k in scores ==> IsScoreText(scores[k])
  }

  /** `handleScoreChange`: store the typed text when it is empty or a number
      in [0, 5]; otherwise ignore the keystroke. Nothing else changes. */
  function HandleScoreChange(r: Review, id: string, value: string): (r': Review)
    ensures IsScoreText(value) ==> r'.scores == r.scores[id := value]
    ensures !IsScoreText(value) ==> r' == r
    ensures r'.(scores := r.scores) == r
  {
    if value == "" || (ParseFloat(value).Finite? && 0.0 <= ParseFloat(value).value && ParseFloat(value).value <= 5.0)
    then r.(scores := r.scores[id := value])
    else r
  }

  /** Starting from nothing, only accepted scores are ever stored. */
  lemma ScoreChangeKeepsAccepted(r: Review, id: string, value: string)
    requires ScoresAccepted(r.scores)
    ensures ScoresAccepted(HandleScoreChange(r, id, value).scores)
  {
  }

  /** A comment is stored as typed. */
  function HandleCommentChange(r: Review, id: string, value: string): (r': Review)
    ensures r'.comments == r.comments[id := value]
    ensures r'.(comments := r.comments) == r
  {
    r.(comments := r.comments[id := value])
  }

  /** The points a stored score adds: none when empty, its number otherwise. */
  function Entered(s: string): Number {
    if s == "" then Finite(0.0) else ParseFloat(s)
  }

  /** The scores that were filled in. */
  function FilledIn(scores: map<string, string>): set<string> {
    set k | k in scores && scores[k] != ""
  }

  /** What the total shows: "0.0" with nothing filled in, otherwise the sum of
      the filled-in scores. */
  datatype TotalDisplay = NoScores | Total(sum: Number)

  /** `calculateTotalScore`. */
  ghost function CalculateTotalScore(scores: map<string, string>): (t: TotalDisplay)
    ensures t.NoScores? <==> forall k :: k in scores ==> scores[k] == ""
  {
    NothingFilledIn(scores);
    if |FilledIn(scores)| > 0 then Total(Sum(scores, Entered)) else NoScores
  }

  lemma NothingFilledIn(scores: map<string, string>)
    ensures |FilledIn(scores)| == 0 <==> forall k :: k in scores ==> scores[k] == ""
  {
    if |FilledIn(scores)| == 0 {
      forall k | k in scores ensures scores[k] == "" {
        assert k in FilledIn(scores) <==> scores[k] != "";
      }
    } else {
      var k :| k in FilledIn(scores);
    }
  }

  /** An accepted score adds between zero and five points. */
  lemma EnteredInRange(s: string)
    requires IsScoreText(s)
    ensures InRange(Entered(s), 0.0, 5.0)
  {
  }

  /** With accepted scores the total is a number between zero and five
      points per stored score. */
  lemma TotalScoreBounded(scores: map<string, string>)
    requires ScoresAccepted(scores)
    ensures var t := CalculateTotalScore(scores);
      t.Total? ==> InRange(t.sum, 0.0, 5.0 * |scores| as real)
  {
    forall k | k in scores ensures InRange(Entered(scores[k]), 0.0, 5.0) {
      EnteredInRange(scores[k]);
    }
    ScoresSumBounded(scores, Entered);
  }

  /** A single filled-in score is the total. */
  lemma SingleScoreIsTotal(id: string, value: string)
    requires value != "" && IsScoreText(value)
    ensures CalculateTotalScore(map[id := value]) == Total(ParseFloat(value))
  {
    assert id in FilledIn(map[id := value]);
    SumSingleton(id, value, Entered);
  }

  /** Typing an accepted, non-empty score replaces that item's points in the
      total; for an item not scored before the total grows by the new score.
      A rejected keystroke leaves the total as it was. */
  lemma ScoreChangeTotal(r: Review, id: string, value: string)
    ensures var t := CalculateTotalScore(HandleScoreChange(r, id, value).scores);
      value != "" && IsScoreText(value) ==>
        t == Total(Add(Sum(r.scores - {id}, Entered), ParseFloat(value)))
        && (id !in r.scores ==> t == Total(Add(Sum(r.scores, Entered), ParseFloat(value))))
    ensures !IsScoreText(value) ==>
      CalculateTotalScore(HandleScoreChange(r, id, value).scores) == CalculateTotalScore(r.scores)
  {
    if value != "" && IsScoreText(value) {
      var s := r.scores[id := value];
      assert id in FilledIn(s);
      SumPut(r.scores, id, value, Entered);
    }
  }

  /** Choosing a decision. */
  function SelectDecision(r: Review, d: Decision): (r': Review)
    ensures r'.decision == Some(d) && r'.(decision := r.decision) == r
  {
    r.(decision := Some(d))
  }

  /** Typing the note asked for with an amendment. */
  function HandleNoteChange(r: Review, note: string): (r': Review)
    ensures r'.decisionNote == note && r'.(decisionNote := r.decisionNote) == r
  {
    r.(decisionNote := note)
  }

  datatype SubmitOutcome = NoDecision | MissingNote | Sent

  datatype Submission = Submission(review: Review, outcome: SubmitOutcome)

  /** `handleSubmitDecision`: a decision is required, an amendment needs a
      non-empty note; otherwise the review is completed. */
  function SubmitDecision(r: Review): (s: Submission)
    ensures s.outcome.NoDecision? <==> r.decision.None?
    ensures s.outcome.MissingNote? <==> r.decision == Some(Amend) && r.decisionNote == ""
    ensures s.outcome.Sent? ==> s.review == r.(status := Completed)
    ensures !s.outcome.Sent? ==> s.review == r
  {
    match r.decision
    case None => Submission(r, NoDecision)
    case Some(d) =>
      if d == Amend && r.decisionNote == "" then Submission(r, MissingNote)
      else Submission(r.(status := Completed), Sent)
  }

  /** Every decision that is not an amendment goes through; an amendment goes
      through exactly when its note is not empty (any character counts,
      spaces included). */
  lemma DecisionsThatGoThrough(r: Review)
    ensures SubmitDecision(r).outcome.Sent? <==>
      r.decision.Some? && (r.decision.value == Amend ==> |r.decisionNote| > 0)
  {
  }

  /** Only a sent decision completes the review; the entry handlers never do. */
  lemma CompletionComesFromSubmit(r: Review, id: string, value: string, d: Decision)
    requires r.status != Completed
    ensures HandleScoreChange(r, id, value).status != Completed
    ensures HandleCommentChange(r, id, value).status != Completed
    ensures SelectDecision(r, d).status != Completed
    ensures HandleNoteChange(r, value).status != Completed
    ensures SubmitDecision(r).review.status == Completed <==> SubmitDecision(r).outcome.Sent?
  {
  }
}

=== FILE: application_wizard.dfy ===
/** The certification application wizard: the form record shared by the four
    steps, its shallow-merge update, the step state machine, and the draft kept
    in a single browser-storage slot. */
module ApplicationWizard {
  import opened Web

  /** One self-assessment answer. `score` is the text of the score input;
      `""` means not yet scored. */
  datatype Answer = Answer(score: string, files: seq<File>, note: string)

  /** The answer a handler starts from when a question has none yet. */
  const EmptyAnswer := Answer("", [], "")

  /** The application form. */
  datatype FormData = FormData(
    farmName: string,
    companyName: string,
    ownerName: string,
    phone: string,
    email: string,
    address: string,
    city: string,
    category: string,
    specialty: seq<string>,
    plusCategories: seq<string>,
    year: string,
    checklist: seq<string>,
    documents: seq<File>,
    selfAssessment: map<string, Answer>,
    confirmed: bool)

  /** A partial form (`Partial<FormData>`): the fields it carries, each present
      or absent. */
  datatype Patch = Patch(
    farmName: Option<string>,
    companyName: Option<string>,
    ownerName: Option<string>,
    phone: Option<string>,
    email: Option<string>,
    address: Option<string>,
    city: Option<string>,
    category: Option<string>,
    specialty: Option<seq<string>>,
    plusCategories: Option<seq<string>>,
    year: Option<string>,
    checklist: Option<seq<string>>,
    documents: Option<seq<File>>,
    selfAssessment: Option<map<string, Answer>>,
    confirmed: Option<bool>)

  /** The patch that carries no field. */
  const NoChange := Patch(None, None, None, None, None, None, None, None, None, None, None, None, None, None, None)

  /** The empty form, with the current calendar year (the clock is a parameter). */
  function DefaultForm(currentYear: nat): (r: FormData)
    ensures r.selfAssessment == map[] && r.documents == [] && !r.confirmed
    ensures r.year == NatToString(currentYear)
  {
    FormData("", "", "", "", "", "", "", "", [], [], NatToString(currentYear), [], [], map[], false)
  }

  // ---------------------------------------------------------------- fields

  /** The fields of the form, to state "every other field is unchanged" once. */
  datatype Field =
    | FarmName | CompanyName | OwnerName | Phone | Email | Address | City | Category
    | Specialty | PlusCategories | Year | Checklist | Documents | SelfAssessment | Confirmed

  /** The value held in one field. */
  datatype Value =
    | Text(text: string)
    | Texts(texts: seq<string>)
    | Files(files: seq<File>)
    | Answers(answers: map<string, Answer>)
    | Flag(flag: bool)

  function Get(f: FormData, fld: Field): Value {
    match fld
    case FarmName => Text(f.farmName)
    case CompanyName => Text(f.companyName)
    case OwnerName => Text(f.ownerName)
    case Phone => Text(f.phone)
    case Email => Text(f.email)
    case Address => Text(f.address)
    case City => Text(f.city)
    case Category => Text(f.category)
    case Specialty => Texts(f.specialty)
    case PlusCategories => Texts(f.plusCategories)
    case Year => Text(f.year)
    case Checklist => Texts(f.checklist)
    case Documents => Files(f.documents)
    case SelfAssessment => Answers(f.selfAssessment)
    case Confirmed => Flag(f.confirmed)
  }

  /** The value a patch carries for a field, if it carries one. */
  function Carried(p: Patch, fld: Field): Option<Value> {
    match fld
    case FarmName => if p.farmName.Some? then Some(Text(p.farmName.value)) else None
    case CompanyName => if p.companyName.Some? then Some(Text(p.companyName.value)) else None
    case OwnerName => if p.ownerName.Some? then Some(Text(p.ownerName.value)) else None
    case Phone => if p.phone.Some? then Some(Text(p.phone.value)) else None
    case Email => if p.email.Some? then Some(Text(p.email.value)) else None
    case Address => if p.address.Some? then Some(Text(p.address.value)) else None
    case City => if p.city.Some? then Some(Text(p.city.value)) else None
    case Category => if p.category.Some? then Some(Text(p.category.value)) else None
    case Specialty => if p.specialty.Some? then Some(Texts(p.specialty.value)) else None
    case PlusCategories => if p.plusCategories.Some? then Some(Texts(p.plusCategories.value)) else None
    case Year => if p.year.Some? then Some(Text(p.year.value)) else None
    case Checklist => if p.checklist.Some? then Some(Texts(p.checklist.value)) else None
    case Documents => if p.documents.Some? then Some(Files(p.documents.value)) else None
    case SelfAssessment => if p.selfAssessment.Some? then Some(Answers(p.selfAssessment.value)) else None
    case Confirmed => if p.confirmed.Some? then Some(Flag(p.confirmed.value)) else None
  }

  /** Two forms that agree on every field are the same form. */
  lemma FieldsDetermineForm(a: FormData, b: FormData)
    requires forall fld :: Get(a, fld) == Get(b, fld)
    ensures a == b
  {
    assert Get(a, FarmName) == Get(b, FarmName) && Get(a, CompanyName) == Get(b, CompanyName);
    assert Get(a, OwnerName) == Get(b, OwnerName) && Get(a, Phone) == Get(b, Phone);
    assert Get(a, Email) == Get(b, Email) && Get(a, Address) == Get(b, Address);
    assert Get(a, City) == Get(b, City) && Get(a, Category) == Get(b, Category);
    assert Get(a, Specialty) == Get(b, Specialty) && Get(a, PlusCategories) == Get(b, PlusCategories);
    assert Get(a, Year) == Get(b, Year) && Get(a, Checklist) == Get(b, Checklist);
    assert Get(a, Documents) == Get(b, Documents) && Get(a, SelfAssessment) == Get(b, SelfAssessment);
    assert Get(a, Confirmed) == Get(b, Confirmed);
  }

  // ---------------------------------------------------------------- update

  /** `updateFormData(data)`: `{ ...prev, ...data }`. */
  function UpdateFormData(f: FormData, p: Patch): FormData {
    FormData(
      p.farmName.GetOr(f.farmName),
      p.companyName.GetOr(f.companyName),
      p.ownerName.GetOr(f.ownerName),
      p.phone.GetOr(f.phone),
      p.email.GetOr(f.email),
      p.address.GetOr(f.address),
      p.city.GetOr(f.city),
      p.category.GetOr(f.category),
      p.specialty.GetOr(f.specialty),
      p.plusCategories.GetOr(f.plusCategories),
      p.year.GetOr(f.year),
      p.checklist.GetOr(f.checklist),
      p.documents.GetOr(f.documents),
      p.selfAssessment.GetOr(f.selfAssessment),
      p.confirmed.GetOr(f.confirmed))
  }

  /** A shallow merge: each field the patch carries takes the patch's value,
      every other field keeps the form's value. */
  lemma UpdateIsShallowMerge(f: FormData, p: Patch)
    ensures forall fld :: Get(UpdateFormData(f, p), fld) == Carried(p, fld).GetOr(Get(f, fld))
  {
  }

  /** The update that carries the fields of `p` and then those of `q`, the
      latter winning. */
  function Then(p: Patch, q: Patch): Patch {
    Patch(
      if q.farmName.Some? then q.farmName else p.farmName,
      if q.companyName.Some? then q.companyName else p.companyName,
      if q.ownerName.Some? then q.ownerName else p.ownerName,
      if q.phone.Some? then q.phone else p.phone,
      if q.email.Some? then q.email else p.email,
      if q.address.Some? then q.address else p.address,
      if q.city.Some? then q.city else p.city,
      if q.category.Some? then q.category else p.category,
      if q.specialty.Some? then q.specialty else p.specialty,
      if q.plusCategories.Some? then q.plusCategories else p.plusCategories,
      if q.year.Some? then q.year else p.year,
      if q.checklist.Some? then q.checklist else p.checklist,
      if q.documents.Some? then q.documents else p.documents,
      if q.selfAssessment.Some? then q.selfAssessment else p.selfAssessment,
      if q.confirmed.Some? then q.confirmed else p.confirmed)
  }

  /** The combined patch carries each field the second patch carries with the
      second patch's value, and otherwise whatever the first one carries. */
  lemma ThenCarries(p: Patch, q: Patch)
    ensures forall fld :: Carried(Then(p, q), fld) == (if Carried(q, fld).Some? then Carried(q, fld) else Carried(p, fld))
  {
    forall fld ensures Carried(Then(p, q), fld) == (if Carried(q, fld).Some? then Carried(q, fld) else Carried(p, fld)) {
      match fld
      case FarmName =>
      case CompanyName =>
      case OwnerName =>
      case Phone =>
      case Email =>
      case Address =>
      case City =>
      case Category =>
      case Specialty =>
      case PlusCategories =>
      case Year =>
      case Checklist =>
      case Documents =>
      case SelfAssessment =>
      case Confirmed =>
    }
  }

  /** Two successive updates are one update with the combined patch. */
  lemma UpdatesCompose(f: FormData, p: Patch, q: Patch)
    ensures UpdateFormData(UpdateFormData(f, p), q) == UpdateFormData(f, Then(p, q))
  {
    UpdateIsShallowMerge(f, p);
    UpdateIsShallowMerge(UpdateFormData(f, p), q);
    UpdateIsShallowMerge(f, Then(p, q));
    ThenCarries(p, q);
    FieldsDetermineForm(UpdateFormData(UpdateFormData(f, p), q), UpdateFormData(f, Then(p, q)));
  }

  /** Applying the same update twice is applying it once. */
  lemma UpdateIdempotent(f: FormData, p: Patch)
    ensures UpdateFormData(UpdateFormData(f, p), p) == UpdateFormData(f, p)
  {
    UpdateIsShallowMerge(f, p);
    UpdateIsShallowMerge(UpdateFormData(f, p), p);
    FieldsDetermineForm(UpdateFormData(UpdateFormData(f, p), p), UpdateFormData(f, p));
  }

  /** The empty patch changes nothing. */
  lemma NoChangeIsIdentity(f: FormData)
    ensures UpdateFormData(f, NoChange) == f
  {
  }

  /** The patch a step sends to replace the answer map only. */
  function AnswersPatch(m: map<string, Answer>): (p: Patch)
    ensures forall fld :: Carried(p, fld) == (if fld == SelfAssessment then Some(Answers(m)) else None)
  {
    NoChange.(selfAssessment := Some(m))
  }

  // ---------------------------------------------------------------- steps

  /** The wizard: the current step (1..4), whether the application was
      submitted, the form, and the draft slot of browser storage. */
  datatype Wizard = Wizard(step: int, submitted: bool, form: FormData, slot: Option<Stored>)

  /** What the draft slot holds: a draft that parses, or text that does not. */
  datatype Stored = Saved(draft: Patch) | Unreadable

  const FirstStep := 1
  const LastStep := 4

  predicate StepInRange(w: Wizard) {
    FirstStep <= w.step <= LastStep
  }

  /** The wizard as first shown, before any draft is loaded. */
  function Initial(currentYear: nat, slot: Option<Stored>): (w: Wizard)
    ensures StepInRange(w) && w.step == FirstStep && !w.submitted
  {
    Wizard(FirstStep, false, DefaultForm(currentYear), slot)
  }

  /** `nextStep`: advance, but never past the last step. */
  function NextStep(w: Wizard): (r: Wizard)
    ensures StepInRange(w) ==> StepInRange(r)
    ensures r.step == (if w.step < LastStep then w.step + 1 else w.step)
    ensures r.(step := w.step) == w
  {
    if w.step < LastStep then w.(step := w.step + 1) else w
  }

  /** `prevStep`: go back, but never before the first step. */
  function PrevStep(w: Wizard): (r: Wizard)
    ensures StepInRange(w) ==> StepInRange(r)
    ensures r.step == (if w.step > FirstStep then w.step - 1 else w.step)
    ensures r.(step := w.step) == w
  {
    if w.step > FirstStep then w.(step := w.step - 1) else w
  }

  /** Going back undoes going forward, and forward undoes back, away from the
      ends of the range. */
  lemma StepsUndo(w: Wizard)
    ensures FirstStep <= w.step < LastStep ==> PrevStep(NextStep(w)) == w
    ensures FirstStep < w.step <= LastStep ==> NextStep(PrevStep(w)) == w
  {
  }

  /** Advancing from the last step or going back from the first does nothing. */
  lemma StepsSaturate(w: Wizard)
    ensures w.step >= LastStep ==> NextStep(w) == w
    ensures w.step <= FirstStep ==> PrevStep(w) == w
  {
  }

  // ---------------------------------------------------------------- draft

  /** The answers with their files dropped: the files a draft cannot restore. */
  function WithoutFiles(m: map<string, Answer>): (r: map<string, Answer>)
    ensures r.Keys == m.Keys
    ensures forall k :: k in r ==> r[k].files == [] && r[k].score == m[k].score && r[k].note == m[k].note
  {
    map k | k in m :: m[k].(files := [])
  }

  /** What reloading a form can give back: the form without its files. */
  function WithoutAllFiles(f: FormData): (r: FormData)
    ensures r.documents == [] && r.selfAssessment == WithoutFiles(f.selfAssessment)
    ensures forall fld :: fld != Documents && fld != SelfAssessment ==> Get(r, fld) == Get(f, fld)
  {
    f.(documents := [], selfAssessment := WithoutFiles(f.selfAssessment))
  }

  /** `handleSaveDraft`'s `JSON.stringify(formData)`: every field. A `File`
      object is written as `{}` and keeps no content; since loading replaces
      every file list by `[]`, the model writes the lists empty straight away. */
  function Serialize(f: FormData): (d: Patch)
    ensures forall fld :: Carried(d, fld).Some?
  {
    Patch(Some(f.farmName), Some(f.companyName), Some(f.ownerName), Some(f.phone),
          Some(f.email), Some(f.address), Some(f.city), Some(f.category),
          Some(f.specialty), Some(f.plusCategories), Some(f.year), Some(f.checklist),
          Some([]), Some(WithoutFiles(f.selfAssessment)), Some(f.confirmed))
  }

  /** The draft-load merge: `{ ...prev, ...parsed, documents: [],
      selfAssessment: <parsed answers, or {} when absent, each with files []> }`. */
  function LoadDraft(prev: FormData, d: Patch): (r: FormData)
    ensures r.documents == []
    ensures r.selfAssessment == WithoutFiles(d.selfAssessment.GetOr(map[]))
    ensures forall fld :: fld != Documents && fld != SelfAssessment ==>
      Get(r, fld) == Carried(d, fld).GetOr(Get(prev, fld))
  {
    UpdateIsShallowMerge(prev, d);
    var patch := d.(documents := Some([]), selfAssessment := Some(WithoutFiles(d.selfAssessment.GetOr(map[]))));
    UpdateIsShallowMerge(prev, patch);
    UpdateFormData(prev, patch)
  }

  /** Loading a draft just saved from `f` gives back `f` without its files,
      whatever form it is loaded into. */
  lemma LoadAfterSave(f: FormData, prev: FormData)
    ensures LoadDraft(prev, Serialize(f)) == WithoutAllFiles(f)
  {
    var r := LoadDraft(prev, Serialize(f));
    forall fld ensures Get(r, fld) == Get(WithoutAllFiles(f), fld) {
      if fld == SelfAssessment {
        assert WithoutFiles(WithoutFiles(f.selfAssessment)) == WithoutFiles(f.selfAssessment);
      }
    }
    FieldsDetermineForm(r, WithoutAllFiles(f));
  }

  /** The mount effect: load the slot's draft if it parses; a slot that is empty
      or does not parse leaves the form as it is. */
  function Mount(w: Wizard): (r: Wizard)
    ensures r.(form := w.form) == w
    ensures w.slot.Some? && w.slot.value.Saved? ==> r.form == LoadDraft(w.form, w.slot.value.draft)
    ensures !(w.slot.Some? && w.slot.value.Saved?) ==> r == w
  {
    match w.slot
    case Some(Saved(d)) => w.(form := LoadDraft(w.form, d))
    case _ => w
  }

  /** `handleSaveDraft`: write the form to the slot. When storage is full the
      write fails and the slot keeps what it held. Nothing else changes. */
  function SaveDraft(w: Wizard, storageFull: bool): (r: Wizard)
    ensures r.(slot := w.slot) == w
    ensures storageFull ==> r.slot == w.slot
    ensures !storageFull ==> r.slot == Some(Saved(Serialize(w.form)))
  {
    if storageFull then w else w.(slot := Some(Saved(Serialize(w.form))))
  }

  /** Saving and then reopening the wizard restores the form without files. */
  lemma ReopenAfterSave(w: Wizard, currentYear: nat)
    ensures Mount(Initial(currentYear, SaveDraft(w, false).slot)).form == WithoutAllFiles(w.form)
  {
    LoadAfterSave(w.form, DefaultForm(currentYear));
  }

  /** `handleSubmit`: mark the application submitted and clear the draft slot. */
  function HandleSubmit(w: Wizard): (r: Wizard)
    ensures r.submitted && r.slot.None?
    ensures r.step == w.step && r.form == w.form
  {
    w.(submitted := true, slot := None)
  }

  /** `handleReset`: back to step 1, not submitted, an empty form, no draft. */
  function HandleReset(w: Wizard, currentYear: nat): (r: Wizard)
    ensures r == Initial(currentYear, None)
  {
    Wizard(FirstStep, false, DefaultForm(currentYear), None)
  }

  /** Resetting twice is resetting once, and a reset wizard reopens empty. */
  lemma ResetIdempotent(w: Wizard, currentYear: nat)
    ensures HandleReset(HandleReset(w, currentYear), currentYear) == HandleReset(w, currentYear)
    ensures Mount(HandleReset(w, currentYear)) == HandleReset(w, currentYear)
  {
  }

  /** After submitting, reopening the wizard starts from the empty form. */
  lemma NoDraftAfterSubmit(w: Wizard, currentYear: nat)
    ensures Mount(Initial(currentYear, HandleSubmit(w).slot)).form == DefaultForm(currentYear)
  {
  }

  // ---------------------------------------------------------------- counts

  /** `Object.keys(selfAssessment).filter(key => selfAssessment[key].score !== "").length`:
      the number of answer keys with a score, whatever the keys are. */
  function AnsweredCount(m: map<string, Answer>): (n: nat)
    ensures n <= |m|
  {
    var answered := set k | k in m && m[k].score != "";
    assert answered <= m.Keys;
    SubsetSize(answered, m.Keys);
    |answered|
  }

  lemma SubsetSize<T>(a: set<T>, b: set<T>)
    requires a <= b
    ensures |a| <= |b|
  {
    assert |b| == |a| + |b - a|;
  }
}

=== FILE: evaluation.dfy ===
/** The self-evaluation question catalogue: five dimensions of twenty
    questions, the filter that selects the questions a certification type must
    answer, and the total of the self-assigned scores. */
module Evaluation {
  import opened Web
  import opened Seqs

  /** The four certification types an applicant can apply for. */
  datatype CertificationType = Type1 | Type2 | Type3 | Type4

  /** A catalogue question. `requiredFor` absent means every type answers it.
      Its title, description and scoring guidelines are display text. */
  datatype Question = Question(id: string, number: nat, requiredFor: Option<seq<CertificationType>>)

  /** A scoring dimension: an ordered group of questions. */
  datatype Dimension = Dimension(id: string, questions: seq<Question>)

  /** An applicant's answer on the self-evaluation page. */
  datatype SelfEvaluationAnswer = SelfEvaluationAnswer(
    questionId: string,
    evidence: string,
    photos: seq<string>,
    selfScore: real)

  /** The id of question number `n`: `"q"` followed by the numeral, as in
      `"q1"` … `"q20"`. */
  function QuestionId(n: nat): string {
    "q" + NatToString(n)
  }

  /** Different numbers give different ids. */
  lemma QuestionIdInjective(a: nat, b: nat)
    ensures QuestionId(a) == QuestionId(b) <==> a == b
  {
    if QuestionId(a) == QuestionId(b) {
      assert NatToString(a) == QuestionId(a)[1..];
      assert NatToString(b) == QuestionId(b)[1..];
      NatToStringValue(a);
      NatToStringValue(b);
    }
  }

  /** A question every certification type answers. */
  function Common(number: nat): Question {
    Question(QuestionId(number), number, None)
  }

  /** A question only types 3 and 4 answer. */
  function CulturalOnly(number: nat): Question {
    Question(QuestionId(number), number, Some([Type3, Type4]))
  }

  /** Catalogue entry `i` (0-based): question number `i + 1`. The first
      sixteen are common to every type, the last four (the fifth dimension)
      are restricted to types 3 and 4. */
  function Entry(i: nat): Question
    requires i < QuestionCount
  {
    if i < 16 then Common(i + 1) else CulturalOnly(i + 1)
  }

  const QuestionCount := 20
  const QuestionsPerDimension := 4

  /** Every catalogue question, in display order. */
  function AllQuestions(): (r: seq<Question>)
    ensures |r| == QuestionCount
    ensures forall i :: 0 <= i < QuestionCount ==> r[i] == Entry(i)
  {
    seq(QuestionCount, i requires 0 <= i < QuestionCount => Entry(i))
  }

  /** The five dimensions, four consecutive questions each. */
  const Dimensions: seq<Dimension> :=
    seq(5, d requires 0 <= d < 5 =>
      Dimension("dimension" + NatToString(d + 1),
                AllQuestions()[QuestionsPerDimension * d..QuestionsPerDimension * (d + 1)]))

  /** `dims.flatMap(dim => dim.questions)`. */
  function Flatten(dims: seq<Dimension>): seq<Question> {
    if |dims| == 0 then [] else dims[0].questions + Flatten(dims[1..])
  }

  /** Flattening dimensions that cut a list into consecutive blocks of four
      gives the list back. */
  lemma {:induction false} FlattenBlocks(dims: seq<Dimension>, qs: seq<Question>)
    requires |qs| == QuestionsPerDimension * |dims|
    requires forall d :: 0 <= d < |dims| ==>
      dims[d].questions == qs[QuestionsPerDimension * d..QuestionsPerDimension * (d + 1)]
    ensures Flatten(dims) == qs
    decreases |dims|
  {
    if |dims| > 0 {
      var rest := qs[QuestionsPerDimension..];
      forall d | 0 <= d < |dims[1..]|
        ensures dims[1..][d].questions == rest[QuestionsPerDimension * d..QuestionsPerDimension * (d + 1)]
      {
        assert dims[1..][d] == dims[d + 1];
      }
      FlattenBlocks(dims[1..], rest);
      assert qs == qs[..QuestionsPerDimension] + rest;
    }
  }

  /** The catalogue is `evaluationDimensions.flatMap(dim => dim.questions)`. */
  lemma AllQuestionsAreTheDimensions()
    ensures Flatten(Dimensions) == AllQuestions()
  {
    FlattenBlocks(Dimensions, AllQuestions());
  }

  /** `!q.requiredFor || q.requiredFor.includes(t)`. */
  predicate AppliesTo(q: Question, t: CertificationType) {
    q.requiredFor.None? || t in q.requiredFor.value
  }

  /** The questions an applicant of type `t` answers. */
  function QuestionsFor(t: CertificationType): (r: seq<Question>)
    ensures forall q :: q in r <==> q in AllQuestions() && AppliesTo(q, t)
    ensures forall q :: q in AllQuestions() && q.requiredFor.None? ==> q in r
  {
    Filter(AllQuestions(), q => AppliesTo(q, t))
  }

  /** The selected questions appear in catalogue order. */
  lemma QuestionsForKeepsCatalogueOrder(t: CertificationType)
    ensures IsSubsequence(QuestionsFor(t), AllQuestions())
  {
    FilterIsSubsequence(AllQuestions(), q => AppliesTo(q, t));
  }

  function Ids(qs: seq<Question>): seq<string> {
    seq(|qs|, i requires 0 <= i < |qs| => qs[i].id)
  }

  /** The catalogue holds q1..q20, numbered 1..20 in order, with distinct ids,
      and only q17..q20 are restricted (to types 3 and 4). */
  lemma CatalogueShape()
    ensures |AllQuestions()| == 20
    ensures forall i :: 0 <= i < 20 ==> AllQuestions()[i].number == i + 1
    ensures forall i :: 0 <= i < 20 ==> AllQuestions()[i].id == QuestionId(i + 1)
    ensures NoDup(Ids(AllQuestions()))
    ensures forall i :: 0 <= i < 16 ==> AllQuestions()[i].requiredFor.None?
    ensures forall i :: 16 <= i < 20 ==> AllQuestions()[i].requiredFor == Some([Type3, Type4])
  {
    var ids := Ids(AllQuestions());
    forall i, j | 0 <= i < j < |ids| ensures ids[i] != ids[j] {
      QuestionIdInjective(i + 1, j + 1);
    }
  }

  /** Types 1 and 2 answer exactly the sixteen unrestricted questions. */
  lemma QuestionsForTypes1And2(t: CertificationType)
    requires t == Type1 || t == Type2
    ensures QuestionsFor(t) == AllQuestions()[..16]
    ensures |QuestionsFor(t)| == 16
  {
    var all := AllQuestions();
    forall i | 0 <= i < 20 ensures AppliesTo(all[i], t) <==> i < 16 {
      assert all[i] == Entry(i);
    }
    FilterPrefix(all, 16, q => AppliesTo(q, t));
  }

  /** Types 3 and 4 answer the whole catalogue. */
  lemma QuestionsForTypes3And4(t: CertificationType)
    requires t == Type3 || t == Type4
    ensures QuestionsFor(t) == AllQuestions()
    ensures |QuestionsFor(t)| == 20
  {
    var all := AllQuestions();
    forall q | q in all ensures AppliesTo(q, t) {
      var i :| 0 <= i < 20 && all[i] == q;
      assert q == Entry(i);
    }
    FilterKeepsAll(all, q => AppliesTo(q, t));
  }

  /** `calculateTotalScore`: `answers.reduce((total, a) => total + a.selfScore, 0)`. */
  function TotalScore(answers: seq<SelfEvaluationAnswer>): real {
    if |answers| == 0 then 0.0
    else TotalScore(answers[..|answers| - 1]) + answers[|answers| - 1].selfScore
  }

  /** The total of a concatenation is the sum of the totals. */
  lemma {:induction false} TotalScoreAppend(a: seq<SelfEvaluationAnswer>, b: seq<SelfEvaluationAnswer>)
    ensures TotalScore(a + b) == TotalScore(a) + TotalScore(b)
    decreases |b|
  {
    if |b| > 0 {
      assert (a + b)[..|a + b| - 1] == a + b[..|b| - 1];
      TotalScoreAppend(a, b[..|b| - 1]);
    } else {
      assert a + b == a;
    }
  }

  /** Scores in [0, 5] add up to a total in [0, 5 per answer]. */
  lemma {:induction false} TotalScoreBounded(answers: seq<SelfEvaluationAnswer>)
    requires forall i :: 0 <= i < |answers| ==> 0.0 <= answers[i].selfScore <= 5.0
    ensures 0.0 <= TotalScore(answers) <= 5.0 * |answers| as real
    decreases |answers|
  {
    if |answers| > 0 {
      TotalScoreBounded(answers[..|answers| - 1]);
    }
  }
}

=== FILE: form_step1.dfy ===
/** Step 1 of the wizard, the applicant's basic data: the multi-select lists
    of specialties and Plus add-ons, and the check that at least one specialty
    was chosen before moving on. */
module FormStep1 {
  import opened Web
  import opened Seqs
  import opened ApplicationWizard
  import FormStep3

  /** The categories an applicant can choose. */
  const ApplicationTypes: seq<string> := [
    "第一類：休閒農場",
    "第二類：農業旅遊經營體",
    "第三類：農業相關組織",
    "第四類：農村社區企業"
  ]

  /** The Plus add-ons an applicant can choose. */
  const PlusCertifications: seq<string> := ["Plus永續行為", "Plus食農體驗"]

  /** Every add-on offered has its own self-assessment section in step 3. */
  lemma OfferedAddOnsHaveSections()
    ensures forall k :: k in PlusCertifications ==> FormStep3.IsPlusKey(k)
  {
  }

  /** The first two categories get the fifth self-assessment section of step 3;
      the last two do not. */
  lemma CategoriesAndFifthSection()
    ensures FormStep3.HasFifth(ApplicationTypes[0]) && FormStep3.HasFifth(ApplicationTypes[1])
    ensures !FormStep3.HasFifth(ApplicationTypes[2]) && !FormStep3.HasFifth(ApplicationTypes[3])
  {
    NamesItsClass(ApplicationTypes[0], "第一類");
    NamesItsClass(ApplicationTypes[1], "第二類");
    FormStep3.LacksFirstTwoClasses(ApplicationTypes[2]);
    FormStep3.LacksFirstTwoClasses(ApplicationTypes[3]);
  }

  /** A category that starts with a class name is of that class. */
  lemma NamesItsClass(category: string, cls: string)
    requires cls <= category
    ensures Includes(category, cls)
  {
    IncludesIffOccurs(category, cls);
    assert category[0..|cls|] == cls;
    assert OccursAt(category, cls, 0);
  }

  /** `toggleSpecialty`: add the specialty, or remove it when already chosen. */
  function ToggleSpecialty(f: FormData, item: string): (r: FormData)
    ensures r.specialty == Toggle(f.specialty, item)
    ensures forall fld :: fld != Specialty ==> Get(r, fld) == Get(f, fld)
  {
    UpdateIsShallowMerge(f, NoChange.(specialty := Some(Toggle(f.specialty, item))));
    UpdateFormData(f, NoChange.(specialty := Some(Toggle(f.specialty, item))))
  }

  /** `togglePlus`: add the add-on, or remove it when already chosen. */
  function TogglePlus(f: FormData, item: string): (r: FormData)
    ensures r.plusCategories == Toggle(f.plusCategories, item)
    ensures forall fld :: fld != PlusCategories ==> Get(r, fld) == Get(f, fld)
  {
    UpdateIsShallowMerge(f, NoChange.(plusCategories := Some(Toggle(f.plusCategories, item))));
    UpdateFormData(f, NoChange.(plusCategories := Some(Toggle(f.plusCategories, item))))
  }

  /** Add-ons chosen only through the toggle never repeat, so step 3 never
      shows a Plus section twice. */
  lemma TogglePlusNeverRepeatsSections(f: FormData, item: string)
    requires NoDup(f.plusCategories)
    ensures NoDup(TogglePlus(f, item).plusCategories)
    ensures NoDup(FormStep3.PlusSections(TogglePlus(f, item).plusCategories))
  {
    TogglePreservesNoDup(f.plusCategories, item);
    FormStep3.NoRepeatedPlusSection(TogglePlus(f, item).plusCategories);
  }

  /** `handleSubmit`: without a specialty the step does not advance;
      otherwise it moves to the next step. */
  function HandleSubmit(w: Wizard): (r: Wizard)
    ensures |w.form.specialty| == 0 ==> r == w
    ensures |w.form.specialty| > 0 ==> r == NextStep(w)
  {
    if |w.form.specialty| == 0 then w else NextStep(w)
  }

  /** Step 1 is left forwards only with at least one specialty. */
  lemma LeavingNeedsSpecialty(w: Wizard)
    requires w.step == FirstStep
    ensures HandleSubmit(w).step != w.step <==> |w.form.specialty| > 0
  {
  }
}

=== FILE: form_step2.dfy ===
/** Step 2 of the wizard: the eligibility checklist and the supporting
    documents. */
module FormStep2 {
  import opened Web
  import opened Seqs
  import opened ApplicationWizard

  /** The three conditions an applicant confirms. */
  const ChecklistItems: seq<string> := [
    "已具備合法場域證明或許可證",
    "已具備商業登記或相關營業核准文件",
    "已具備公共安全檢查合格證明"
  ]

  /** The step's state: the form and the names of the files uploaded while
      the step is shown. */
  datatype Step2 = Step2(form: FormData, uploadedFiles: seq<string>)

  /** `handleChecklistChange`: a checked item is appended, an unchecked item is
      removed wherever it occurs and every other entry is kept, in order.
      Only the checklist changes. */
  function HandleChecklistChange(f: FormData, item: string, checked: bool): (r: FormData)
    ensures checked ==> r.checklist == f.checklist + [item]
    ensures !checked ==> item !in r.checklist && IsSubsequence(r.checklist, f.checklist)
    ensures !checked ==> forall x :: x != item ==> (x in r.checklist <==> x in f.checklist)
    ensures !checked ==> multiset(r.checklist) == multiset(f.checklist)[item := 0]
    ensures forall fld :: fld != Checklist ==> Get(r, fld) == Get(f, fld)
  {
    var next := if checked then f.checklist + [item] else RemoveAll(f.checklist, item);
    UpdateIsShallowMerge(f, NoChange.(checklist := Some(next)));
    RemoveAllKeepsOrder(f.checklist, item);
    UpdateFormData(f, NoChange.(checklist := Some(next)))
  }

  /** A click on a checkbox: it reports the opposite of what it shows. */
  function ClickChecklist(f: FormData, item: string): (r: FormData)
    ensures r.checklist == Toggle(f.checklist, item)
  {
    HandleChecklistChange(f, item, item !in f.checklist)
  }

  /** The checklist holds only checklist items, each once: what clicking the
      checkboxes produces. */
  predicate WellFormedChecklist(c: seq<string>) {
    NoDup(c) && forall x :: x in c ==> x in ChecklistItems
  }

  /** Clicking a checkbox keeps the checklist well formed. */
  lemma ClickKeepsChecklistWellFormed(f: FormData, item: string)
    requires WellFormedChecklist(f.checklist) && item in ChecklistItems
    ensures WellFormedChecklist(ClickChecklist(f, item).checklist)
  {
    TogglePreservesNoDup(f.checklist, item);
  }

  /** The next-step button is enabled once the checklist is as long as the
      list of items. */
  predicate CanAdvance(f: FormData) {
    |f.checklist| >= |ChecklistItems|
  }

  /** On a well-formed checklist the length test means every item is checked. */
  lemma CanAdvanceIffAllChecked(f: FormData)
    requires WellFormedChecklist(f.checklist)
    ensures CanAdvance(f) <==> forall x :: x in ChecklistItems ==> x in f.checklist
  {
    var checked := set x | x in f.checklist;
    var all := set x | x in ChecklistItems;
    assert NoDup(ChecklistItems);
    DistinctSetSize(f.checklist);
    DistinctSetSize(ChecklistItems);
    assert checked <= all;
    if CanAdvance(f) {
      assert |checked| >= |all|;
      SubsetOfSameSize(checked, all);
      forall x | x in ChecklistItems ensures x in f.checklist {
        assert x in all;
      }
    } else {
      assert |checked| < |all|;
      assert checked != all;
      var x :| x in all && x !in checked;
      assert x in ChecklistItems && x !in f.checklist;
    }
  }

  lemma SubsetOfSameSize<T>(a: set<T>, b: set<T>)
    requires a <= b && |a| >= |b|
    ensures a == b
  {
    assert |b - a| == |b| - |a|;
  }

  /** The step-2 submit: move on to step 3 exactly when the button is enabled. */
  function Advance(w: Wizard): (r: Wizard)
    ensures r.step != w.step ==> CanAdvance(w.form)
    ensures CanAdvance(w.form) ==> r == NextStep(w)
    ensures r.(step := w.step) == w
  {
    if CanAdvance(w.form) then NextStep(w) else w
  }

  function Names(files: seq<File>): (names: seq<string>)
    ensures |names| == |files|
    ensures forall i :: 0 <= i < |files| ==> names[i] == files[i].name
  {
    seq(|files|, i requires 0 <= i < |files| => files[i].name)
  }

  /** `handleFileChange`: with no file list nothing happens; otherwise the
      chosen files are appended to the documents and their names to the list
      shown, both in order. */
  function HandleFileChange(s: Step2, files: Option<seq<File>>): (r: Step2)
    ensures files.None? ==> r == s
    ensures files.Some? ==> r.form.documents == s.form.documents + files.value
    ensures files.Some? ==> r.uploadedFiles == s.uploadedFiles + Names(files.value)
    ensures forall fld :: fld != Documents ==> Get(r.form, fld) == Get(s.form, fld)
  {
    match files
    case None => s
    case Some(chosen) =>
      var p := NoChange.(documents := Some(s.form.documents + chosen));
      UpdateIsShallowMerge(s.form, p);
      Step2(UpdateFormData(s.form, p), s.uploadedFiles + Names(chosen))
  }

  /** While the step is shown, the names listed are the names of the documents
      added since it opened. */
  lemma UploadsTrackDocuments(s: Step2, before: seq<File>, files: Option<seq<File>>)
    requires |before| <= |s.form.documents| && s.form.documents[..|before|] == before
    requires s.uploadedFiles == Names(s.form.documents[|before|..])
    ensures var r := HandleFileChange(s, files);
      |before| <= |r.form.documents| && r.form.documents[..|before|] == before
      && r.uploadedFiles == Names(r.form.documents[|before|..])
  {
    if files.Some? {
      var d := s.form.documents;
      var r := HandleFileChange(s, files);
      assert r.form.documents[|before|..] == d[|before|..] + files.value;
      assert r.form.documents[..|before|] == d[..|before|];
    }
  }
}

=== FILE: form_step3.dfy ===
/** Step 3 of the wizard, the self-assessment: the sections shown for the
    chosen category and Plus add-ons, the handlers that edit the answer map,
    and the count that gates the next step. */
module FormStep3 {
  import opened Web
  import opened Seqs
  import opened ApplicationWizard

  /** A section of questions; only the question ids matter here, the question
      and hint texts are display text. */
  datatype Section = Section(title: string, items: seq<string>)

  /** The id of item `n` of the base and fifth sections, with two digits:
      `"q01"` … `"q17"`. */
  function ItemId(n: nat): string {
    "q" + [DigitChar(n / 10 % 10), DigitChar(n % 10)]
  }

  lemma ItemIdInjective(a: nat, b: nat)
    requires a < 100 && b < 100
    ensures ItemId(a) == ItemId(b) <==> a == b
  {
    if ItemId(a) == ItemId(b) {
      assert ItemId(a)[1] == ItemId(b)[1] && ItemId(a)[2] == ItemId(b)[2];
    }
  }

  /** The item ids numbered `lo` up to, not including, `hi`. */
  function ItemIds(lo: nat, hi: nat): (r: seq<string>)
    requires lo <= hi
    ensures |r| == hi - lo
    ensures forall i :: 0 <= i < hi - lo ==> r[i] == ItemId(lo + i)
  {
    seq(hi - lo, i requires 0 <= i < hi - lo => ItemId(lo + i))
  }

  /** The four base sections (thirteen questions), shown to every applicant. */
  const BaseSections: seq<Section> := [
    Section("整體環境與經營", ItemIds(1, 4)),
    Section("特色資源與設施", ItemIds(4, 7)),
    Section("體驗活動與服務", ItemIds(7, 11)),
    Section("安全與環境保護", ItemIds(11, 14))
  ]

  /** The fifth section (four questions). */
  const FifthSection := Section("在地連結與創新 (第五構面)", ItemIds(14, 18))

  const SustainabilityKey := "Plus永續行為"
  const FoodEducationKey := "Plus食農體驗"

  /** The Plus section registered under an add-on key, if any. */
  function PlusSection(key: string): (r: Option<Section>)
    ensures r.Some? <==> key == SustainabilityKey || key == FoodEducationKey
    ensures r.Some? ==> |r.value.items| == 3
  {
    if key == SustainabilityKey then
      Some(Section("Plus 永續行為認證", ["p_sus_01", "p_sus_02", "p_sus_03"]))
    else if key == FoodEducationKey then
      Some(Section("Plus 食農體驗認證", ["p_exp_01", "p_exp_02", "p_exp_03"]))
    else None
  }

  predicate IsPlusKey(key: string) {
    PlusSection(key).Some?
  }

  /** The fifth section is shown when the category names the first or the
      second class. */
  predicate HasFifth(category: string) {
    Includes(category, "第一類") || Includes(category, "第二類")
  }

  /** The `forEach` over the add-on keys: each key with a registered section
      pushes it, any other key is skipped. */
  function PlusSections(keys: seq<string>): seq<Section> {
    if |keys| == 0 then []
    else (if IsPlusKey(keys[0]) then [PlusSection(keys[0]).value] else []) + PlusSections(keys[1..])
  }

  /** The add-on keys that have a section, in the applicant's order. */
  function KnownKeys(keys: seq<string>): seq<string> {
    Filter(keys, IsPlusKey)
  }

  /** The Plus part of the list is one section per known key, in key order. */
  lemma {:induction false} PlusSectionsFollowKnownKeys(keys: seq<string>)
    ensures |PlusSections(keys)| == |KnownKeys(keys)|
    ensures forall i :: 0 <= i < |KnownKeys(keys)| ==>
      IsPlusKey(KnownKeys(keys)[i]) && PlusSections(keys)[i] == PlusSection(KnownKeys(keys)[i]).value
    decreases |keys|
  {
    if |keys| > 0 {
      PlusSectionsFollowKnownKeys(keys[1..]);
      var k := KnownKeys(keys);
      assert k == (if IsPlusKey(keys[0]) then [keys[0]] else []) + KnownKeys(keys[1..]);
      forall i | 0 <= i < |k| ensures IsPlusKey(k[i]) {
        assert k[i] in k;
      }
    }
  }

  /** A key without a registered section adds nothing, wherever it appears. */
  lemma {:induction false} UnknownKeySkipped(a: seq<string>, key: string, b: seq<string>)
    requires !IsPlusKey(key)
    ensures PlusSections(a + [key] + b) == PlusSections(a + b)
    decreases |a|
  {
    if |a| > 0 {
      assert (a + [key] + b)[1..] == a[1..] + [key] + b;
      assert (a + b)[1..] == a[1..] + b;
      UnknownKeySkipped(a[1..], key, b);
    } else {
      assert a + [key] + b == [key] + b;
      assert ([key] + b)[1..] == b;
      assert a + b == b;
    }
  }

  /** No Plus section is the fifth section. */
  lemma {:induction false} FifthNotAmongPlus(keys: seq<string>)
    ensures FifthSection !in PlusSections(keys)
    decreases |keys|
  {
    if |keys| > 0 {
      FifthNotAmongPlus(keys[1..]);
    }
  }

  /** The `useMemo` section assembly: the base sections, then the fifth section
      exactly when the category asks for it, then one Plus section per known
      add-on key, in the applicant's order. */
  function AssembleSections(category: string, plusCategories: seq<string>): (r: seq<Section>)
    ensures |r| == 4 + (if HasFifth(category) then 1 else 0) + |KnownKeys(plusCategories)|
    ensures r[..4] == BaseSections
    ensures HasFifth(category) ==> r[4] == FifthSection
    ensures !HasFifth(category) ==> FifthSection !in r
    ensures forall i :: 0 <= i < |KnownKeys(plusCategories)| ==>
      IsPlusKey(KnownKeys(plusCategories)[i])
      && r[4 + (if HasFifth(category) then 1 else 0) + i] == PlusSection(KnownKeys(plusCategories)[i]).value
  {
    PlusSectionsFollowKnownKeys(plusCategories);
    FifthNotAmongPlus(plusCategories);
    BaseSections + (if HasFifth(category) then [FifthSection] else []) + PlusSections(plusCategories)
  }

  /** `sections.reduce((sum, section) => sum + section.items.length, 0)`. */
  function TotalQuestions(sections: seq<Section>): nat {
    if |sections| == 0 then 0 else |sections[0].items| + TotalQuestions(sections[1..])
  }

  lemma {:induction false} TotalQuestionsAppend(a: seq<Section>, b: seq<Section>)
    ensures TotalQuestions(a + b) == TotalQuestions(a) + TotalQuestions(b)
    decreases |a|
  {
    if |a| > 0 {
      assert (a + b)[1..] == a[1..] + b;
      TotalQuestionsAppend(a[1..], b);
    } else {
      assert a + b == b;
    }
  }

  lemma {:induction false} PlusSectionsTotal(keys: seq<string>)
    ensures TotalQuestions(PlusSections(keys)) == 3 * |KnownKeys(keys)|
    decreases |keys|
  {
    if |keys| > 0 {
      PlusSectionsTotal(keys[1..]);
      var head := if IsPlusKey(keys[0]) then [PlusSection(keys[0]).value] else [];
      TotalQuestionsAppend(head, PlusSections(keys[1..]));
      assert KnownKeys(keys) == (if IsPlusKey(keys[0]) then [keys[0]] else []) + KnownKeys(keys[1..]);
    }
  }

  /** `totalQuestions` is 13, plus 4 with the fifth section, plus 3 for each
      add-on key that has a section. */
  lemma TotalQuestionsCount(category: string, plusCategories: seq<string>)
    ensures TotalQuestions(AssembleSections(category, plusCategories))
      == 13 + (if HasFifth(category) then 4 else 0) + 3 * |KnownKeys(plusCategories)|
  {
    var fifth := if HasFifth(category) then [FifthSection] else [];
    TotalQuestionsAppend(BaseSections + fifth, PlusSections(plusCategories));
    TotalQuestionsAppend(BaseSections, fifth);
    PlusSectionsTotal(plusCategories);
    assert TotalQuestions(BaseSections) == 13 by {
      assert BaseSections[1..][1..][1..][1..] == [];
    }
  }

  /** Add-on keys chosen without repetition give Plus sections without
      repetition. */
  lemma NoRepeatedPlusSection(plusCategories: seq<string>)
    requires NoDup(plusCategories)
    ensures NoDup(PlusSections(plusCategories))
  {
    var k := KnownKeys(plusCategories);
    FilterNoDup(plusCategories, IsPlusKey);
    PlusSectionsFollowKnownKeys(plusCategories);
    forall i, j | 0 <= i < j < |k| ensures PlusSections(plusCategories)[i] != PlusSections(plusCategories)[j] {
      assert PlusSection(k[i]).value.title != PlusSection(k[j]).value.title;
    }
  }

  /** The ids of the questions shown, section by section. */
  function VisibleIds(sections: seq<Section>): (r: seq<string>)
    ensures |r| == TotalQuestions(sections)
  {
    if |sections| == 0 then [] else sections[0].items + VisibleIds(sections[1..])
  }

  // ---------------------------------------------------------------- answers

  /** `selfAssessment[q] || { score: "", files: [], note: "" }`. */
  function CurrentAnswer(f: FormData, q: string): Answer {
    if q in f.selfAssessment then f.selfAssessment[q] else EmptyAnswer
  }

  /** The frame of every answer handler: only the answer of `q` may differ,
      every other answer and every other field of the form is as before. */
  ghost predicate OnlyAnswerChanged(f: FormData, r: FormData, q: string) {
    (forall fld :: fld != SelfAssessment ==> Get(r, fld) == Get(f, fld))
    && q in r.selfAssessment
    && (forall k :: k != q ==> (k in r.selfAssessment <==> k in f.selfAssessment))
    && (forall k :: k != q && k in f.selfAssessment ==> r.selfAssessment[k] == f.selfAssessment[k])
  }

  /** `updateFormData({ selfAssessment: { ...selfAssessment, [q]: a } })`. */
  function PutAnswer(f: FormData, q: string, a: Answer): (r: FormData)
    ensures OnlyAnswerChanged(f, r, q) && r.selfAssessment[q] == a
  {
    UpdateIsShallowMerge(f, AnswersPatch(f.selfAssessment[q := a]));
    UpdateFormData(f, AnswersPatch(f.selfAssessment[q := a]))
  }

  /** `handleScoreChange`: the typed score is stored when it is empty or a
      number in [0, 5]; any other text is rejected and the form is unchanged. */
  function HandleScoreChange(f: FormData, q: string, score: string): (r: FormData)
    ensures !IsScoreText(score) ==> r == f
    ensures IsScoreText(score) ==>
      (OnlyAnswerChanged(f, r, q)
       && r.selfAssessment[q].score == score
       && r.selfAssessment[q].files == CurrentAnswer(f, q).files
       && r.selfAssessment[q].note == CurrentAnswer(f, q).note)
  {
    if IsScoreText(score) then PutAnswer(f, q, CurrentAnswer(f, q).(score := score)) else f
  }

  /** Every stored score is empty or a number in [0, 5]. */
  predicate ScoresValid(m: map<string, Answer>) {
    forall k :: k in m ==> IsScoreText(m[k].score)
  }

  /** `handleSliderChange`: the slider's value, written with one decimal. The
      slider moves in steps of 0.1; its value is given as a count of tenths. */
  function HandleSliderChange(f: FormData, q: string, tenths: nat): (r: FormData)
    ensures OnlyAnswerChanged(f, r, q)
    ensures ParseFloat(r.selfAssessment[q].score) == Finite(tenths as real / 10.0)
    ensures r.selfAssessment[q].files == CurrentAnswer(f, q).files
    ensures r.selfAssessment[q].note == CurrentAnswer(f, q).note
  {
    ParseToFixed1(tenths);
    PutAnswer(f, q, CurrentAnswer(f, q).(score := ToFixed1(tenths)))
  }

  /** Within the slider's range 0..5, moving the slider is typing the text it
      writes: the text is always accepted. */
  lemma SliderIsAcceptedScoreChange(f: FormData, q: string, tenths: nat)
    requires tenths <= 50
    ensures IsScoreText(ToFixed1(tenths))
    ensures HandleSliderChange(f, q, tenths) == HandleScoreChange(f, q, ToFixed1(tenths))
  {
    SliderTextIsScoreText(tenths);
  }

  /** `handleNoteChange`: replace the note, keep score and files. */
  function HandleNoteChange(f: FormData, q: string, note: string): (r: FormData)
    ensures OnlyAnswerChanged(f, r, q)
    ensures r.selfAssessment[q].note == note
    ensures r.selfAssessment[q].score == CurrentAnswer(f, q).score
    ensures r.selfAssessment[q].files == CurrentAnswer(f, q).files
  {
    PutAnswer(f, q, CurrentAnswer(f, q).(note := note))
  }

  /** The score, slider and note handlers keep every stored score valid. */
  lemma HandlersKeepScoresValid(f: FormData, q: string, score: string, note: string, tenths: nat)
    requires ScoresValid(f.selfAssessment)
    ensures ScoresValid(HandleScoreChange(f, q, score).selfAssessment)
    ensures ScoresValid(HandleNoteChange(f, q, note).selfAssessment)
    ensures tenths <= 50 ==> ScoresValid(HandleSliderChange(f, q, tenths).selfAssessment)
  {
    ScoreEditKeepsScoresValid(f, q, score);
    var n := HandleNoteChange(f, q, note);
    forall k | k in n.selfAssessment ensures IsScoreText(n.selfAssessment[k].score) {
      if k == q && q !in f.selfAssessment {
        assert IsScoreText("");
      }
    }
    if tenths <= 50 {
      SliderIsAcceptedScoreChange(f, q, tenths);
      ScoreEditKeepsScoresValid(f, q, ToFixed1(tenths));
    }
  }

  lemma ScoreEditKeepsScoresValid(f: FormData, q: string, score: string)
    requires ScoresValid(f.selfAssessment)
    ensures ScoresValid(HandleScoreChange(f, q, score).selfAssessment)
  {
    var r := HandleScoreChange(f, q, score);
    forall k | k in r.selfAssessment ensures IsScoreText(r.selfAssessment[k].score) {
      if IsScoreText(score) && k != q {
        assert r.selfAssessment[k] == f.selfAssessment[k];
      }
    }
  }

  /** `handleFileChange`: no file list changes nothing; otherwise the chosen
      files are appended after the answer's files, in order. */
  function HandleFileChange(f: FormData, q: string, files: Option<seq<File>>): (r: FormData)
    ensures files.None? ==> r == f
    ensures files.Some? ==>
      (OnlyAnswerChanged(f, r, q)
       && r.selfAssessment[q].files == CurrentAnswer(f, q).files + files.value
       && r.selfAssessment[q].score == CurrentAnswer(f, q).score
       && r.selfAssessment[q].note == CurrentAnswer(f, q).note)
  {
    match files
    case None => f
    case Some(chosen) =>
      var a := CurrentAnswer(f, q);
      PutAnswer(f, q, a.(files := a.files + chosen))
  }

  /** `handleRemoveFile`: drop the file at `index` from an existing answer; a
      question without an answer is left alone. */
  function HandleRemoveFile(f: FormData, q: string, index: int): (r: FormData)
    ensures q !in f.selfAssessment ==> r == f
    ensures q in f.selfAssessment ==>
      (OnlyAnswerChanged(f, r, q)
       && r.selfAssessment[q] == f.selfAssessment[q].(files := RemoveAt(f.selfAssessment[q].files, index)))
  {
    if q in f.selfAssessment then
      var a := f.selfAssessment[q];
      PutAnswer(f, q, a.(files := RemoveAt(a.files, index)))
    else f
  }

  /** Removing the file just added to an existing answer restores the form. */
  lemma RemoveUndoesAdd(f: FormData, q: string, x: File)
    requires q in f.selfAssessment
    ensures HandleRemoveFile(HandleFileChange(f, q, Some([x])), q, |f.selfAssessment[q].files|) == f
  {
    var a := f.selfAssessment[q];
    var g := HandleFileChange(f, q, Some([x]));
    assert (a.files + [x])[..|a.files|] == a.files;
    var r := HandleRemoveFile(g, q, |a.files|);
    assert (a.files + [x])[|a.files| + 1..] == [];
    assert r.selfAssessment[q] == a;
    assert r.selfAssessment == f.selfAssessment;
    FieldsDetermineForm(r, f);
  }

  // ---------------------------------------------------------------- gate

  /** `answeredQuestions >= totalQuestions`: the next-step button is enabled
      when the number of scored answer keys reaches the number of questions
      shown, whichever keys those are. */
  predicate CanAdvanceAsWritten(f: FormData) {
    AnsweredCount(f.selfAssessment) >= TotalQuestions(AssembleSections(f.category, f.plusCategories))
  }

  predicate Scored(m: map<string, Answer>, id: string) {
    id in m && m[id].score != ""
  }

  /** Every question shown has a score. */
  predicate AllVisibleScored(f: FormData) {
    forall id :: id in VisibleIds(AssembleSections(f.category, f.plusCategories)) ==> Scored(f.selfAssessment, id)
  }

  /** The gate counting only the questions shown: the number of shown
      questions with a score reaches the number of questions shown. */
  predicate CanAdvance(f: FormData) {
    var ids := VisibleIds(AssembleSections(f.category, f.plusCategories));
    |Filter(ids, id => Scored(f.selfAssessment, id))| >= |ids|
  }

  /** The corrected gate opens exactly when every question shown is scored. */
  lemma CanAdvanceIffAllVisibleScored(f: FormData)
    ensures CanAdvance(f) <==> AllVisibleScored(f)
  {
    var ids := VisibleIds(AssembleSections(f.category, f.plusCategories));
    FilterKeepsAllIff(ids, id => Scored(f.selfAssessment, id));
  }

  /** The step-3 submit as written: the handler always calls `nextStep`, and
      the button that triggers it is enabled when the count of scored keys
      reaches the number of questions shown. */
  function Advance(w: Wizard): (r: Wizard)
    ensures r.step != w.step ==> CanAdvanceAsWritten(w.form)
    ensures CanAdvanceAsWritten(w.form) ==> r == NextStep(w)
    ensures r.(step := w.step) == w
  {
    if CanAdvanceAsWritten(w.form) then NextStep(w) else w
  }

  /** The step-3 submit with the corrected gate: move on to step 4 only when
      every question shown is scored. */
  function AdvanceWhenAllScored(w: Wizard): (r: Wizard)
    ensures r.step != w.step ==> AllVisibleScored(w.form)
    ensures AllVisibleScored(w.form) ==> r == NextStep(w)
    ensures r.(step := w.step) == w
  {
    CanAdvanceIffAllVisibleScored(w.form);
    if CanAdvance(w.form) then NextStep(w) else w
  }

  /** A category whose only '第' opens a different class name does not
      contain `cls`. */
  lemma NamesNoClass(category: string, cls: string)
    requires |category| >= 3 && |cls| == 3 && category[0] == '第' && cls[0] == '第'
    requires category[1] != cls[1]
    requires forall i :: 1 <= i < |category| ==> category[i] != '第'
    ensures !Includes(category, cls)
  {
    IncludesIffOccurs(category, cls);
    forall i | 0 <= i && i + 3 <= |category| ensures !OccursAt(category, cls, i) {
      if i == 0 {
        assert category[i..i + 3][1] != cls[1];
      } else {
        assert category[i..i + 3][0] != cls[0];
      }
    }
  }

  /** A category opening with a class name other than the first two, with no
      other '第', gets no fifth section. */
  lemma LacksFirstTwoClasses(category: string)
    requires |category| >= 3 && category[0] == '第' && category[1] != '一' && category[1] != '二'
    requires forall i :: 1 <= i < |category| ==> category[i] != '第'
    ensures !HasFifth(category)
  {
    NamesNoClass(category, "第一類");
    NamesNoClass(category, "第二類");
  }

  /** The category of the third class, which gets no fifth section. */
  const ThirdClass := "第三類：農業相關組織"

  /** Answers for questions 2 to 14, all scored: what is left after answering
      all but the first question of the base sections and the first of the
      fifth section under a first-class category. */
  function StaleAnswers(): map<string, Answer> {
    map n | 2 <= n < 15 :: ItemId(n) := Answer("5", [], "")
  }

  /** The form after those answers when the applicant then picks the third
      class: q14 is no longer shown, q01 was never scored. */
  function StaleForm(currentYear: nat): (f: FormData)
    ensures f.selfAssessment == StaleAnswers() && f.category == ThirdClass && f.plusCategories == []
  {
    DefaultForm(currentYear).(category := ThirdClass, selfAssessment := StaleAnswers())
  }

  lemma {:induction false} ItemIdSetSize(lo: nat, hi: nat)
    requires lo <= hi < 100
    ensures |set n | lo <= n < hi :: ItemId(n)| == hi - lo
    decreases hi - lo
  {
    if lo < hi {
      var rest := set n | lo + 1 <= n < hi :: ItemId(n);
      ItemIdSetSize(lo + 1, hi);
      forall n | lo + 1 <= n < hi ensures ItemId(n) != ItemId(lo) {
        ItemIdInjective(n, lo);
      }
      assert (set n | lo <= n < hi :: ItemId(n)) == rest + {ItemId(lo)};
    }
  }

  /** The gate as written opens with question 1 unscored: thirteen questions
      are shown (third class, no add-on) and thirteen keys are scored, one of
      them (q14) for a question no longer shown. */
  lemma StaleKeysOpenGate(currentYear: nat)
    ensures var f := StaleForm(currentYear);
      CanAdvanceAsWritten(f) && !AllVisibleScored(f) && !CanAdvance(f)
  {
    var f := StaleForm(currentYear);
    ThirdClassShowsBaseSections();
    StaleAnswersCount();
    assert VisibleIds(BaseSections)[0] == ItemId(1);
    CanAdvanceIffAllVisibleScored(f);
  }

  /** The third class without add-ons is shown the thirteen base questions. */
  lemma ThirdClassShowsBaseSections()
    ensures AssembleSections(ThirdClass, []) == BaseSections
    ensures TotalQuestions(BaseSections) == 13
  {
    LacksFirstTwoClasses(ThirdClass);
    TotalQuestionsCount(ThirdClass, []);
  }

  /** The stale answers score thirteen keys, but not q01. */
  lemma StaleAnswersCount()
    ensures AnsweredCount(StaleAnswers()) == 13
    ensures !Scored(StaleAnswers(), ItemId(1))
  {
    var m := StaleAnswers();
    assert (set k | k in m && m[k].score != "") == set n | 2 <= n < 15 :: ItemId(n);
    ItemIdSetSize(2, 15);
    forall n | 2 <= n < 15 ensures ItemId(n) != ItemId(1) {
      ItemIdInjective(n, 1);
    }
  }

  /** On that form the wizard as written leaves step 3 with a question shown
      but unscored, where the corrected gate keeps it there. */
  lemma StaleKeysLeaveStep3(w: Wizard, currentYear: nat)
    requires w.step == 3 && w.form == StaleForm(currentYear)
    ensures Advance(w).step == 4 && !AllVisibleScored(w.form)
    ensures AdvanceWhenAllScored(w) == w
  {
    StaleKeysOpenGate(currentYear);
  }

  /** When every scored key is a question shown and the shown ids are
      distinct, the gate as written agrees with the corrected one. */
  lemma GatesAgreeWithoutStaleKeys(f: FormData)
    requires NoDup(VisibleIds(AssembleSections(f.category, f.plusCategories)))
    requires forall k :: Scored(f.selfAssessment, k) ==> k in VisibleIds(AssembleSections(f.category, f.plusCategories))
    ensures CanAdvanceAsWritten(f) <==> CanAdvance(f)
  {
    var ids := VisibleIds(AssembleSections(f.category, f.plusCategories));
    var m := f.selfAssessment;
    var answered := set k | k in m && m[k].score != "";
    var scoredIds := Filter(ids, id => Scored(m, id));
    FilterNoDup(ids, id => Scored(m, id));
    assert answered == set x | x in scoredIds by {
      forall x ensures x in answered <==> x in scoredIds {
        assert x in answered <==> Scored(m, x);
      }
    }
    DistinctSetSize(scoredIds);
    assert AnsweredCount(m) == |scoredIds|;
  }
}

=== FILE: form_step4.dfy ===
/** Step 4 of the wizard: the summary of the self-assessment and the
    confirmation that gates the submission. */
module FormStep4 {
  import opened Web
  import opened ApplicationWizard
  import FormStep3

  /** The number of questions the summary shows as the total, fixed whatever
      sections step 3 showed. */
  const ShownQuestionTotal := 17

  /** The maximum the summary shows next to the total score. */
  const ShownMaximum := 85.0

  /** The fixed maximum is five points for each of the fixed seventeen
      questions. */
  lemma ShownMaximumIsFivePerQuestion()
    ensures ShownMaximum == 5.0 * ShownQuestionTotal as real
  {
  }

  /** The fixed total is the number of questions step 3 shows exactly when it
      shows the fifth section and no Plus section. */
  lemma ShownTotalMatchesStep3(category: string, plusCategories: seq<string>)
    ensures FormStep3.TotalQuestions(FormStep3.AssembleSections(category, plusCategories)) == ShownQuestionTotal
      <==> FormStep3.HasFifth(category) && |FormStep3.KnownKeys(plusCategories)| == 0
  {
    FormStep3.TotalQuestionsCount(category, plusCategories);
  }

  /** `answeredQuestions` reaches the number of stored answers exactly when
      every stored answer has a score; an unscored one keeps it below. */
  lemma AnsweredIffAllScored(m: map<string, Answer>)
    ensures AnsweredCount(m) == |m| <==> forall k :: k in m ==> m[k].score != ""
    ensures (exists k :: k in m && m[k].score == "") ==> AnsweredCount(m) < |m|
  {
    var answered := set k | k in m && m[k].score != "";
    assert answered <= m.Keys;
    if forall k :: k in m ==> m[k].score != "" {
      assert answered == m.Keys;
    } else {
      var k :| k in m && m[k].score == "";
      assert |m.Keys| == |answered| + |m.Keys - answered|;
      assert k in m.Keys - answered;
    }
  }

  /** The points a stored score counts for: `parseFloat(score) || 0`. */
  function ScorePoints(a: Answer): Number {
    Or0(ParseFloat(a.score))
  }

  /** A stored score never counts as NaN, and a valid one counts for between
      zero and five points. */
  lemma PointsInRange(a: Answer)
    ensures !ScorePoints(a).NaN?
    ensures IsScoreText(a.score) ==> InRange(ScorePoints(a), 0.0, 5.0)
  {
    ParseFloatNaNIff("");
  }

  /** `totalScore`: the sum of the points of every stored answer, whichever
      questions they belong to. The order of the sum does not matter. */
  ghost function TotalScore(m: map<string, Answer>): Number {
    Sum(m, ScorePoints)
  }

  /** With every stored score valid, the total lies between 0 and five points
      per stored answer. */
  lemma TotalScoreBounded(m: map<string, Answer>)
    requires FormStep3.ScoresValid(m)
    ensures InRange(TotalScore(m), 0.0, 5.0 * |m| as real)
  {
    forall k | k in m ensures InRange(ScorePoints(m[k]), 0.0, 5.0) {
      PointsInRange(m[k]);
    }
    ScoresSumBounded(m, ScorePoints);
  }

  /** Scoring a question replaces that question's points in the total; scoring
      a question not answered before adds its points to the total. */
  lemma TotalScorePut(m: map<string, Answer>, k: string, a: Answer)
    ensures TotalScore(m[k := a]) == Add(TotalScore(m - {k}), ScorePoints(a))
    ensures k !in m ==> TotalScore(m[k := a]) == Add(TotalScore(m), ScorePoints(a))
  {
    SumPut(m, k, a, ScorePoints);
  }

  /** No answers, no points. */
  lemma TotalOfNoAnswers()
    ensures TotalScore(map[]) == Finite(0.0)
  {
  }

  /** `onSubmit`: submit only when the confirmation is ticked. */
  function OnSubmit(w: Wizard): (r: Wizard)
    ensures !w.form.confirmed ==> r == w
    ensures w.form.confirmed ==> r == HandleSubmit(w)
  {
    if w.form.confirmed then HandleSubmit(w) else w
  }

  /** The confirmation checkbox: sets `confirmed`, nothing else. */
  function SetConfirmed(f: FormData, checked: bool): (r: FormData)
    ensures r.confirmed == checked
    ensures forall fld :: fld != Confirmed ==> Get(r, fld) == Get(f, fld)
  {
    UpdateIsShallowMerge(f, NoChange.(confirmed := Some(checked)));
    UpdateFormData(f, NoChange.(confirmed := Some(checked)))
  }

  /** An application becomes submitted on this step only once it is confirmed,
      and submitting clears the draft. */
  lemma SubmittedOnlyWhenConfirmed(w: Wizard)
    requires !w.submitted
    ensures OnSubmit(w).submitted <==> w.form.confirmed
    ensures OnSubmit(w).submitted ==> OnSubmit(w).slot.None?
  {
  }

  /** Ticking the box and submitting always submits. */
  lemma ConfirmThenSubmit(w: Wizard)
    ensures OnSubmit(w.(form := SetConfirmed(w.form, true))).submitted
  {
  }
}

=== FILE: photo_upload.dfy ===
/** The evidence-photo picker: a bounded list of photo addresses, files
    checked one by one on selection, and removal by position. */
module PhotoUpload {
  import opened Web
  import opened Seqs

  /** The default number of photos an answer may hold. */
  const DefaultMaxPhotos := 5

  /** The largest photo accepted, in bytes: 5 MiB. */
  const MaxPhotoSize := 5 * 1024 * 1024

  /** Why a selected file was skipped; each skip raises its own alert. */
  datatype Skip = NotAnImage | TooLarge

  /** The verdict on one selected file. */
  function Check(f: File): Option<Skip> {
    if !IsImage(f) then Some(NotAnImage)
    else if f.size > MaxPhotoSize then Some(TooLarge)
    else None
  }

  /** A file is uploaded when it is an image of at most 5 MiB. */
  predicate Acceptable(f: File) {
    Check(f).None?
  }

  lemma AcceptableIff(f: File)
    ensures Acceptable(f) <==> IsImage(f) && f.size <= MaxPhotoSize
  {
  }

  /** The addresses made for the given files, in order. */
  function Urls(files: seq<File>, urlOf: File -> string): (r: seq<string>)
    ensures |r| == |files|
    ensures forall i :: 0 <= i < |files| ==> r[i] == urlOf(files[i])
  {
    seq(|files|, i requires 0 <= i < |files| => urlOf(files[i]))
  }

  datatype SelectOutcome =
    | NoFiles
    | TooMany
    | Uploaded(photos: seq<string>, skipped: seq<Skip>)

  /** `handleFileSelect`: no files, nothing happens; more files than room,
      one alert and nothing happens; otherwise every acceptable file is
      added after the existing photos, in order, and every other file is
      skipped with the reason. `urlOf` stands for the browser's object-URL
      factory. */
  method HandleFileSelect(photos: seq<string>, files: seq<File>, maxPhotos: int, urlOf: File -> string)
    returns (r: SelectOutcome)
    ensures |files| == 0 <==> r.NoFiles?
    ensures r.TooMany? <==> |files| > 0 && |photos| + |files| > maxPhotos
    ensures r.Uploaded? ==> r.photos == photos + Urls(Filter(files, Acceptable), urlOf)
    ensures r.Uploaded? ==> |r.skipped| == |files| - |Filter(files, Acceptable)|
    ensures r.Uploaded? ==> |r.photos| <= maxPhotos
  {
    if |files| == 0 {
      return NoFiles;
    }
    if |photos| + |files| > maxPhotos {
      return TooMany;
    }
    var kept: seq<File> := [];
    var added: seq<string> := [];
    var skipped: seq<Skip> := [];
    var i := 0;
    while i < |files|
      invariant 0 <= i <= |files|
      invariant kept == Filter(files[..i], Acceptable)
      invariant added == Urls(kept, urlOf)
      invariant |skipped| == i - |kept|
    {
      FilterSnoc(files, i, Acceptable);
      var verdict := Check(files[i]);
      if verdict.Some? {
        skipped := skipped + [verdict.value];
      } else {
        UrlsSnoc(kept, files[i], urlOf);
        kept := kept + [files[i]];
        added := added + [urlOf(files[i])];
      }
      i := i + 1;
    }
    assert files[..i] == files;
    return Uploaded(photos + added, skipped);
  }

  lemma UrlsSnoc(files: seq<File>, f: File, urlOf: File -> string)
    ensures Urls(files + [f], urlOf) == Urls(files, urlOf) + [urlOf(f)]
  {
  }

  /** An upload never takes a list past its limit. */
  lemma UploadStaysWithinLimit(photos: seq<string>, files: seq<File>, maxPhotos: int, urlOf: File -> string)
    requires |photos| + |files| <= maxPhotos
    ensures |photos + Urls(Filter(files, Acceptable), urlOf)| <= maxPhotos
  {
  }

  /** Files that are all acceptable are all added. */
  lemma AcceptableFilesAllAdded(photos: seq<string>, files: seq<File>, urlOf: File -> string)
    requires forall f :: f in files ==> Acceptable(f)
    ensures photos + Urls(Filter(files, Acceptable), urlOf) == photos + Urls(files, urlOf)
  {
    FilterKeepsAll(files, Acceptable);
  }

  /** `handleRemovePhoto`: drop the photo at that position. */
  function RemovePhoto(photos: seq<string>, index: int): (r: seq<string>)
    ensures 0 <= index < |photos| ==> |r| == |photos| - 1
    ensures 0 <= index < |photos| ==> forall j :: 0 <= j < |r| ==> r[j] == photos[if j < index then j else j + 1]
    ensures !(0 <= index < |photos|) ==> r == photos
  {
    RemoveAt(photos, index)
  }

  /** Removing the photo just added restores the list. */
  lemma RemoveUndoesAdd(photos: seq<string>, url: string)
    ensures RemovePhoto(photos + [url], |photos|) == photos
  {
    assert (photos + [url])[..|photos|] == photos;
  }

  /** The add button shows while enabled and under the limit. */
  predicate CanAdd(photos: seq<string>, maxPhotos: int, disabled: bool) {
    !disabled && |photos| < maxPhotos
  }

  /** Removing a photo from a list within its limit makes room again. */
  lemma RemovingMakesRoom(photos: seq<string>, index: int, maxPhotos: int)
    requires |photos| <= maxPhotos
    requires 0 <= index < |photos|
    ensures CanAdd(RemovePhoto(photos, index), maxPhotos, false)
  {
  }

  /** With the add button hidden, any non-empty selection is refused as too
      many. */
  lemma FullListRefusesMore(photos: seq<string>, files: seq<File>, maxPhotos: int)
    requires !CanAdd(photos, maxPhotos, false)
    requires |files| > 0
    ensures |photos| + |files| > maxPhotos
  {
  }
}

=== FILE: score_selector.dfy ===
/** The score input of the self-evaluation page. Unlike the wizard, which
    rejects an out-of-range score, this input always emits a score: it clamps
    what was typed into [0, 5] and reads empty or unparseable text as 0. */
module ScoreSelector {
  import opened Web

  const MinScore := 0.0
  const MaxScore := 5.0

  /** Distance between two reals. */
  function Distance(a: real, b: real): real {
    if a <= b then b - a else a - b
  }

  /** The score emitted for a parsed number: NaN and anything below 0 emit 0,
      anything above 5 emits 5, and a value in range is emitted unchanged. */
  function Clamp(n: Number): (r: real)
    ensures MinScore <= r <= MaxScore
    ensures n.NaN? ==> r == MinScore
    ensures n.Infinity? ==> r == (if n.negative then MinScore else MaxScore)
    ensures n.Finite? ==> forall y :: MinScore <= y <= MaxScore ==> Distance(r, n.value) <= Distance(y, n.value)
  {
    match n
    case NaN => MinScore
    case Infinity(negative) => if negative then MinScore else MaxScore
    case Finite(v) => if v < MinScore then MinScore else if v > MaxScore then MaxScore else v
  }

  /** A finite value already in [0, 5] is the only point of [0, 5] at distance
      0 from itself, so clamping emits it unchanged. */
  lemma ClampKeepsInRange(n: Number)
    requires InRange(n, MinScore, MaxScore)
    ensures Clamp(n) == n.value
  {
    assert Distance(Clamp(n), n.value) <= Distance(n.value, n.value);
  }

  /** Clamping an emitted score again returns it unchanged. */
  lemma ClampIdempotent(n: Number)
    ensures Clamp(Finite(Clamp(n))) == Clamp(n)
  {
    ClampKeepsInRange(Finite(Clamp(n)));
  }

  /** `handleScoreChange`: the score emitted for the text typed into the input.
      Clearing the input emits 0, not an unset score. */
  function HandleScoreChange(value: string): (r: real)
    ensures MinScore <= r <= MaxScore
    ensures value == "" ==> r == MinScore
    ensures ParseFloat(value).NaN? ==> r == MinScore
  {
    if value == "" then MinScore else Clamp(ParseFloat(value))
  }

  /** Text the wizard accepts as a score (other than the empty text) is emitted
      here with exactly the value the wizard would store: the two policies
      agree inside [0, 5] and differ only outside it. */
  lemma AcceptedTextPassesThrough(value: string)
    requires IsScoreText(value) && value != ""
    ensures HandleScoreChange(value) == ParseFloat(value).value
  {
    ClampKeepsInRange(ParseFloat(value));
  }

  /** Text the wizard rejects still emits a score here: the nearest bound, or 0
      when it is not a number. */
  lemma RejectedTextIsClamped(value: string)
    requires !IsScoreText(value)
    ensures ParseFloat(value).Finite? && ParseFloat(value).value > MaxScore ==> HandleScoreChange(value) == MaxScore
    ensures ParseFloat(value).Finite? && ParseFloat(value).value < MinScore ==> HandleScoreChange(value) == MinScore
    ensures ParseFloat(value).NaN? ==> HandleScoreChange(value) == MinScore
  {
    assert value != "";
  }

  /** A value typed with one decimal, as the slider of the wizard writes it,
      is emitted as the number it denotes. */
  lemma OneDecimalTextPassesThrough(tenths: nat)
    requires tenths <= 50
    ensures HandleScoreChange(ToFixed1(tenths)) == tenths as real / 10.0
  {
    SliderTextIsScoreText(tenths);
    ParseToFixed1(tenths);
    AcceptedTextPassesThrough(ToFixed1(tenths));
  }

  /** The three quick-select buttons. */
  datatype QuickButton = ZeroPoints | HalfPoints | FullPoints

  /** `quickSelectScore`: the score a button emits. */
  function QuickSelect(b: QuickButton): (r: real)
    ensures r == 0.0 || r == 2.5 || r == 5.0
    ensures MinScore <= r <= MaxScore
    ensures b.ZeroPoints? <==> r == MinScore
    ensures b.FullPoints? <==> r == MaxScore
  {
    match b
    case ZeroPoints => 0.0
    case HalfPoints => 2.5
    case FullPoints => 5.0
  }

  /** A quick-selected score is a fixed point of the typed-input clamp. */
  lemma QuickSelectIsClampFixed(b: QuickButton)
    ensures Clamp(Finite(QuickSelect(b))) == QuickSelect(b)
  {
    ClampKeepsInRange(Finite(QuickSelect(b)));
  }
}

=== FILE: self_evaluation.dfy ===
/** The self-evaluation page: the answers kept one per question available to
    the chosen certification type, the single-field answer update, the
    evidence check before submission, and the saved form. */
module SelfEvaluation {
  import opened Web
  import opened Seqs
  import opened Evaluation

  /** The applicant's basic data. */
  datatype BasicInfo = BasicInfo(
    farmName: string,
    applicantName: string,
    contactPhone: string,
    contactEmail: string,
    farmAddress: string,
    certificationType: CertificationType,
    applicationDate: string)

  datatype Status = Draft | Submitted | Reviewed

  /** What is written to the `selfEvaluation` storage slot. */
  datatype StoredForm = StoredForm(
    basicInfo: BasicInfo,
    answers: seq<SelfEvaluationAnswer>,
    totalScore: real,
    status: Status)

  /** The slot holds a form that parses, or text that does not. */
  datatype Stored = Saved(form: StoredForm) | Unreadable

  /** The page: basic data, answers, status and the storage slot. */
  datatype Page = Page(basicInfo: BasicInfo, answers: seq<SelfEvaluationAnswer>, status: Status, slot: Option<Stored>)

  /** The basic data the page starts with: the signed-in user's details (empty
      when absent), type 1, and today's date. */
  function InitialBasicInfo(farmName: string, contactPerson: string, phone: string, email: string, today: string): (b: BasicInfo)
    ensures b.certificationType == Type1 && b.farmAddress == ""
  {
    BasicInfo(farmName, contactPerson, phone, email, "", Type1, today)
  }

  /** The answer a question starts with. */
  function DefaultAnswer(id: string): (a: SelfEvaluationAnswer)
    ensures a.questionId == id && Blank(a.evidence) && a.photos == [] && a.selfScore == 0.0
  {
    SelfEvaluationAnswer(id, "", [], 0.0)
  }

  // ---------------------------------------------------------------- initialisation

  /** The position of the first answer for question `id`; `|answers|` when
      there is none. */
  function FirstMatch(answers: seq<SelfEvaluationAnswer>, id: string): (i: nat)
    ensures i <= |answers|
    ensures i < |answers| ==> answers[i].questionId == id
    ensures forall j :: 0 <= j < i ==> answers[j].questionId != id
  {
    if |answers| == 0 then 0
    else if answers[0].questionId == id then 0
    else 1 + FirstMatch(answers[1..], id)
  }

  /** `answers.find(a => a.questionId === id)`. */
  function Find(answers: seq<SelfEvaluationAnswer>, id: string): Option<SelfEvaluationAnswer> {
    var i := FirstMatch(answers, id);
    if i < |answers| then Some(answers[i]) else None
  }

  /** The answer initialisation: one answer per available question, in order,
      the first existing answer for it when there is one, a default otherwise. */
  function InitAnswers(available: seq<Question>, answers: seq<SelfEvaluationAnswer>): (r: seq<SelfEvaluationAnswer>)
    ensures |r| == |available|
    ensures forall i :: 0 <= i < |available| ==> r[i].questionId == available[i].id
    ensures forall i :: 0 <= i < |available| && FirstMatch(answers, available[i].id) < |answers| ==>
      r[i] == answers[FirstMatch(answers, available[i].id)]
    ensures forall i :: 0 <= i < |available| && FirstMatch(answers, available[i].id) == |answers| ==>
      r[i] == DefaultAnswer(available[i].id)
  {
    seq(|available|, i requires 0 <= i < |available| => Find(answers, available[i].id).GetOr(DefaultAnswer(available[i].id)))
  }

  /** Every initialised answer is an existing answer or a default: nothing is
      invented. */
  lemma InitAnswersTakesOrDefaults(available: seq<Question>, answers: seq<SelfEvaluationAnswer>)
    ensures forall a :: a in InitAnswers(available, answers) ==> a in answers || a == DefaultAnswer(a.questionId)
  {
    var r := InitAnswers(available, answers);
    forall a | a in r ensures a in answers || a == DefaultAnswer(a.questionId) {
      var i :| 0 <= i < |r| && r[i] == a;
    }
  }

  /** Answers for questions that are not available are dropped. */
  lemma InitAnswersDropsUnavailable(available: seq<Question>, answers: seq<SelfEvaluationAnswer>)
    ensures forall a :: a in InitAnswers(available, answers) ==> exists q :: q in available && q.id == a.questionId
  {
    var r := InitAnswers(available, answers);
    forall a | a in r ensures exists q :: q in available && q.id == a.questionId {
      var i :| 0 <= i < |r| && r[i] == a;
      assert available[i] in available;
    }
  }

  /** Initialising again for the same questions changes nothing. */
  lemma InitAnswersIdempotent(available: seq<Question>, answers: seq<SelfEvaluationAnswer>)
    ensures InitAnswers(available, InitAnswers(available, answers)) == InitAnswers(available, answers)
  {
    InitAnswersNarrowing(available, available, answers);
  }

  /** Moving to a question list and then to one of its sub-lists gives what
      moving to the sub-list directly gives: every answer the sub-list needs
      survives the detour. */
  lemma InitAnswersNarrowing(small: seq<Question>, big: seq<Question>, answers: seq<SelfEvaluationAnswer>)
    requires forall q :: q in small ==> q in big
    ensures InitAnswers(small, InitAnswers(big, answers)) == InitAnswers(small, answers)
  {
    var mid := InitAnswers(big, answers);
    var a := InitAnswers(small, mid);
    var b := InitAnswers(small, answers);
    forall i | 0 <= i < |small| ensures a[i] == b[i] {
      var id := small[i].id;
      assert small[i] in big;
      var k :| 0 <= k < |big| && big[k] == small[i];
      assert mid[k].questionId == id;
      var j := FirstMatch(mid, id);
      assert j <= k;
      assert big[j].id == id;
    }
  }

  /** A type whose questions include those of another: switching to it and
      back keeps every answer of the first type. */
  lemma SwitchingTypesAndBack(answers: seq<SelfEvaluationAnswer>, t: CertificationType)
    requires t == Type3 || t == Type4
    ensures forall u :: InitAnswers(QuestionsFor(u), InitAnswers(QuestionsFor(t), answers)) == InitAnswers(QuestionsFor(u), answers)
  {
    QuestionsForTypes3And4(t);
    forall u ensures InitAnswers(QuestionsFor(u), InitAnswers(QuestionsFor(t), answers)) == InitAnswers(QuestionsFor(u), answers) {
      InitAnswersNarrowing(QuestionsFor(u), QuestionsFor(t), answers);
    }
  }

  /** Switching from type 3 to type 1 and back loses the answers to the four
      questions only types 3 and 4 answer: they start again from defaults. */
  lemma NarrowingForgetsFifthDimension(answers: seq<SelfEvaluationAnswer>)
    ensures var r := InitAnswers(QuestionsFor(Type3), InitAnswers(QuestionsFor(Type1), answers));
      |r| == 20 && forall i :: 16 <= i < 20 ==> r[i] == DefaultAnswer(QuestionId(i + 1))
  {
    var mid := InitAnswers(QuestionsFor(Type1), answers);
    CommonIds(answers);
    FifthDimensionDefaults(mid);
    QuestionsForTypes3And4(Type3);
    assert InitAnswers(QuestionsFor(Type3), mid) == InitAnswers(AllQuestions(), mid);
  }

  lemma FifthDimensionDefaults(mid: seq<SelfEvaluationAnswer>)
    requires |mid| == 16
    requires forall j :: 0 <= j < 16 ==> mid[j].questionId == QuestionId(j + 1)
    ensures forall i :: 16 <= i < 20 ==> InitAnswers(AllQuestions(), mid)[i] == DefaultAnswer(QuestionId(i + 1))
  {
    forall i | 16 <= i < 20
      ensures InitAnswers(AllQuestions(), mid)[i] == DefaultAnswer(QuestionId(i + 1))
    {
      var q := AllQuestions()[i];
      assert q.id == QuestionId(i + 1) by {
        assert q == Entry(i);
      }
      forall j | 0 <= j < |mid| ensures mid[j].questionId != q.id {
        QuestionIdInjective(j + 1, i + 1);
      }
      AbsentIdDefaults(AllQuestions(), mid, i);
    }
  }

  /** After initialising for type 1, answer `j` is for question `j + 1`. */
  lemma CommonIds(answers: seq<SelfEvaluationAnswer>)
    ensures |InitAnswers(QuestionsFor(Type1), answers)| == 16
    ensures forall j :: 0 <= j < 16 ==> InitAnswers(QuestionsFor(Type1), answers)[j].questionId == QuestionId(j + 1)
  {
    QuestionsForTypes1And2(Type1);
    forall j | 0 <= j < 16 ensures QuestionsFor(Type1)[j].id == QuestionId(j + 1) {
      assert QuestionsFor(Type1)[j] == AllQuestions()[j] == Entry(j);
    }
  }

  /** A question no existing answer is for starts from the default. */
  lemma AbsentIdDefaults(available: seq<Question>, answers: seq<SelfEvaluationAnswer>, i: nat)
    requires i < |available|
    requires forall j :: 0 <= j < |answers| ==> answers[j].questionId != available[i].id
    ensures InitAnswers(available, answers)[i] == DefaultAnswer(available[i].id)
  {
  }

  // ---------------------------------------------------------------- update

  /** The field an edit sets, with its new value. */
  datatype FieldValue = Evidence(text: string) | Photos(urls: seq<string>) | SelfScore(score: real)

  /** `{ ...answer, [field]: value }`. */
  function SetField(a: SelfEvaluationAnswer, v: FieldValue): (r: SelfEvaluationAnswer)
    ensures r.questionId == a.questionId
    ensures r.evidence == (if v.Evidence? then v.text else a.evidence)
    ensures r.photos == (if v.Photos? then v.urls else a.photos)
    ensures r.selfScore == (if v.SelfScore? then v.score else a.selfScore)
  {
    match v
    case Evidence(text) => a.(evidence := text)
    case Photos(urls) => a.(photos := urls)
    case SelfScore(score) => a.(selfScore := score)
  }

  /** `updateAnswer`: set one field of every answer for the question; all
      other answers, and the length of the list, stay as they were. */
  function UpdateAnswer(answers: seq<SelfEvaluationAnswer>, questionId: string, v: FieldValue): (r: seq<SelfEvaluationAnswer>)
    ensures |r| == |answers|
    ensures forall i :: 0 <= i < |answers| && answers[i].questionId != questionId ==> r[i] == answers[i]
    ensures forall i :: 0 <= i < |answers| && answers[i].questionId == questionId ==> r[i] == SetField(answers[i], v)
  {
    seq(|answers|, i requires 0 <= i < |answers| =>
      if answers[i].questionId == questionId then SetField(answers[i], v) else answers[i])
  }

  /** Editing the same field twice keeps the last value; the question ids,
      and so the one-answer-per-question shape, never change. */
  lemma UpdateLastWins(answers: seq<SelfEvaluationAnswer>, questionId: string, v: FieldValue, w: FieldValue)
    requires v.Evidence? == w.Evidence? && v.Photos? == w.Photos?
    ensures UpdateAnswer(UpdateAnswer(answers, questionId, v), questionId, w) == UpdateAnswer(answers, questionId, w)
    ensures forall i :: 0 <= i < |answers| ==> UpdateAnswer(answers, questionId, v)[i].questionId == answers[i].questionId
  {
  }

  /** Lists with the same question id at every position find the same first
      answer for any question. */
  lemma {:induction false} SameIdsSameFirstMatch(a: seq<SelfEvaluationAnswer>, b: seq<SelfEvaluationAnswer>, id: string)
    requires |a| == |b| && forall i :: 0 <= i < |a| ==> a[i].questionId == b[i].questionId
    ensures FirstMatch(a, id) == FirstMatch(b, id)
    decreases |a|
  {
    if |a| > 0 && a[0].questionId != id {
      SameIdsSameFirstMatch(a[1..], b[1..], id);
    }
  }

  /** An edit of an initialised list leaves it initialised: one answer per
      question, in order, and re-initialising for the same questions keeps it. */
  lemma UpdateKeepsInitialised(available: seq<Question>, answers: seq<SelfEvaluationAnswer>, questionId: string, v: FieldValue)
    requires answers == InitAnswers(available, answers)
    ensures var r := UpdateAnswer(answers, questionId, v);
      |r| == |available| && forall i :: 0 <= i < |r| ==> r[i].questionId == available[i].id
    ensures var r := UpdateAnswer(answers, questionId, v);
      r == InitAnswers(available, r)
  {
    var r := UpdateAnswer(answers, questionId, v);
    var t := InitAnswers(available, r);
    forall i | 0 <= i < |available| ensures t[i] == r[i] {
      var id := available[i].id;
      SameIdsSameFirstMatch(r, answers, id);
      var j := FirstMatch(answers, id);
      assert j <= i;
      assert answers[j] == answers[i];
    }
  }

  // ---------------------------------------------------------------- submission

  /** `answer.evidence.trim()` is not empty. */
  predicate HasEvidence(a: SelfEvaluationAnswer) {
    Trim(a.evidence) != ""
  }

  /** An answer has evidence exactly when its evidence text is not all
      whitespace. */
  lemma HasEvidenceIffNotBlank(a: SelfEvaluationAnswer)
    ensures HasEvidence(a) <==> !Blank(a.evidence)
  {
    TrimEmptyIffBlank(a.evidence);
  }

  /** `completedAnswers`. */
  function CompletedAnswers(answers: seq<SelfEvaluationAnswer>): nat {
    |Filter(answers, HasEvidence)|
  }

  /** An answer the submission rejects: its trimmed evidence is empty. */
  predicate LacksEvidence(a: SelfEvaluationAnswer) {
    !HasEvidence(a)
  }

  /** `incompleteAnswers`: the answers whose trimmed evidence is empty. */
  function IncompleteAnswers(answers: seq<SelfEvaluationAnswer>): (r: seq<SelfEvaluationAnswer>)
    ensures forall a :: a in r <==> a in answers && Blank(a.evidence)
  {
    forall a ensures LacksEvidence(a) <==> Blank(a.evidence) {
      HasEvidenceIffNotBlank(a);
    }
    Filter(answers, LacksEvidence)
  }

  /** No answer is incomplete exactly when every answer has evidence. */
  lemma NoneIncompleteIff(answers: seq<SelfEvaluationAnswer>)
    ensures |IncompleteAnswers(answers)| == 0 <==> forall a :: a in answers ==> !Blank(a.evidence)
  {
    var r := IncompleteAnswers(answers);
    if |r| > 0 {
      assert r[0] in r;
    }
  }

  /** Complete and incomplete answers together are all the answers. */
  lemma {:induction false} CompletedPlusIncomplete(answers: seq<SelfEvaluationAnswer>)
    ensures CompletedAnswers(answers) + |IncompleteAnswers(answers)| == |answers|
    decreases |answers|
  {
    if |answers| > 0 {
      CompletedPlusIncomplete(answers[1..]);
    }
  }

  /** The number of questions of the chosen type. */
  function TotalQuestions(p: Page): nat {
    |QuestionsFor(p.basicInfo.certificationType)|
  }

  /** The submit button: shown while not submitted, enabled once as many
      answers have evidence as there are questions. */
  predicate SubmitEnabled(p: Page) {
    p.status != Submitted && CompletedAnswers(p.answers) >= TotalQuestions(p)
  }

  /** With one answer per question, an enabled button means no answer lacks
      evidence, so the check inside the submission passes. */
  lemma EnabledMeansComplete(p: Page)
    requires |p.answers| == TotalQuestions(p)
    requires SubmitEnabled(p)
    ensures |IncompleteAnswers(p.answers)| == 0
  {
    CompletedPlusIncomplete(p.answers);
  }

  datatype SubmitResult = Incomplete(count: nat) | Cancelled | Failed | Done

  datatype Submission = Submission(page: Page, result: SubmitResult)

  /** The form written on saving or submitting, with the given status. */
  function StoredWith(p: Page, status: Status): (s: StoredForm)
    ensures s.basicInfo == p.basicInfo && s.answers == p.answers && s.status == status
    ensures s.totalScore == TotalScore(p.answers)
  {
    StoredForm(p.basicInfo, p.answers, TotalScore(p.answers), status)
  }

  /** `submitEvaluation`: with any answer lacking evidence, report how many
      and stop; then ask for confirmation; then write the form as submitted,
      which fails when storage is full. */
  function SubmitEvaluation(p: Page, confirmed: bool, storageFull: bool): (s: Submission)
    ensures s.result.Incomplete? <==> |IncompleteAnswers(p.answers)| > 0
    ensures s.result.Incomplete? ==> s.result.count == |IncompleteAnswers(p.answers)| && s.page == p
    ensures s.result.Done? <==> |IncompleteAnswers(p.answers)| == 0 && confirmed && !storageFull
    ensures s.result.Done? ==> s.page == p.(status := Submitted, slot := Some(Saved(StoredWith(p, Submitted))))
    ensures !s.result.Done? ==> s.page == p
  {
    var incomplete := IncompleteAnswers(p.answers);
    if |incomplete| > 0 then Submission(p, Incomplete(|incomplete|))
    else if !confirmed then Submission(p, Cancelled)
    else if storageFull then Submission(p, Failed)
    else Submission(p.(status := Submitted, slot := Some(Saved(StoredWith(p, Submitted)))), Done)
  }

  /** The highest total the chosen type can reach: five per question. */
  function MaxPossibleScore(p: Page): real {
    TotalQuestions(p) as real * 5.0
  }

  /** Types 1 and 2 can reach 80 points, types 3 and 4 can reach 100. */
  lemma MaxPossibleScores(p: Page)
    ensures p.basicInfo.certificationType in {Type1, Type2} ==> MaxPossibleScore(p) == 80.0
    ensures p.basicInfo.certificationType in {Type3, Type4} ==> MaxPossibleScore(p) == 100.0
  {
    var t := p.basicInfo.certificationType;
    if t == Type1 || t == Type2 {
      QuestionsForTypes1And2(t);
    } else {
      QuestionsForTypes3And4(t);
    }
  }

  /** One answer per question, each scored in [0, 5]: the total stays within
      the maximum. */
  lemma TotalWithinMaximum(p: Page)
    requires |p.answers| == TotalQuestions(p)
    requires forall i :: 0 <= i < |p.answers| ==> 0.0 <= p.answers[i].selfScore <= 5.0
    ensures 0.0 <= TotalScore(p.answers) <= MaxPossibleScore(p)
  {
    TotalScoreBounded(p.answers);
  }

  // ---------------------------------------------------------------- type and storage

  /** Choosing a certification type (disabled once submitted); a new type
      re-initialises the answers for its questions. */
  function ChangeType(p: Page, t: CertificationType): (r: Page)
    ensures p.status == Submitted || t == p.basicInfo.certificationType ==> r == p
    ensures p.status != Submitted ==> r.basicInfo.certificationType == t
    ensures r.status == p.status && r.slot == p.slot
    ensures p.status != Submitted && t != p.basicInfo.certificationType ==>
      r.answers == InitAnswers(QuestionsFor(t), p.answers)
      && |r.answers| == TotalQuestions(r)
  {
    if p.status == Submitted || t == p.basicInfo.certificationType then p
    else p.(basicInfo := p.basicInfo.(certificationType := t), answers := InitAnswers(QuestionsFor(t), p.answers))
  }

  /** `saveDraft`: write the form as a draft; when storage is full nothing is
      written. The page's own status is not changed. A submitted page shows
      no save button, so it never writes a draft over the submitted form. */
  function SaveDraft(p: Page, storageFull: bool): (r: Page)
    ensures p.status == Submitted || storageFull ==> r == p
    ensures p.status != Submitted && !storageFull ==> r == p.(slot := Some(Saved(StoredWith(p, Draft))))
  {
    if p.status == Submitted || storageFull then p else p.(slot := Some(Saved(StoredWith(p, Draft))))
  }

  /** An evidence, photo or score input calling `updateAnswer`; every such
      input is disabled once the form is submitted. */
  function EditAnswer(p: Page, questionId: string, v: FieldValue): (r: Page)
    ensures p.status == Submitted ==> r == p
    ensures p.status != Submitted ==> r.answers == UpdateAnswer(p.answers, questionId, v)
    ensures r.(answers := p.answers) == p
  {
    if p.status == Submitted then p else p.(answers := UpdateAnswer(p.answers, questionId, v))
  }

  /** The farm address input, the only basic-data field the page lets the
      applicant type, disabled once the form is submitted. */
  function EditAddress(p: Page, address: string): (r: Page)
    ensures p.status == Submitted ==> r == p
    ensures p.status != Submitted ==>
      r.basicInfo.farmAddress == address && r.basicInfo.(farmAddress := p.basicInfo.farmAddress) == p.basicInfo
    ensures r.(basicInfo := p.basicInfo) == p
  {
    if p.status == Submitted then p else p.(basicInfo := p.basicInfo.(farmAddress := address))
  }

  /** The application date input, disabled once the form is submitted. */
  function EditApplicationDate(p: Page, date: string): (r: Page)
    ensures p.status == Submitted ==> r == p
    ensures p.status != Submitted ==>
      r.basicInfo.applicationDate == date && r.basicInfo.(applicationDate := p.basicInfo.applicationDate) == p.basicInfo
    ensures r.(basicInfo := p.basicInfo) == p
  {
    if p.status == Submitted then p else p.(basicInfo := p.basicInfo.(applicationDate := date))
  }

  /** Editing an answer keeps one answer per question of the page's type. */
  lemma EditKeepsInitialised(p: Page, questionId: string, v: FieldValue)
    requires Initialised(p)
    ensures Initialised(EditAnswer(p, questionId, v))
  {
    UpdateKeepsInitialised(QuestionsFor(p.basicInfo.certificationType), p.answers, questionId, v);
  }

  /** A submitted form is locked: no input, type choice or save changes the
      page or what is stored. */
  lemma SubmittedPageLocked(p: Page, questionId: string, v: FieldValue, text: string, t: CertificationType, storageFull: bool)
    requires p.status == Submitted
    ensures EditAnswer(p, questionId, v) == p
    ensures EditAddress(p, text) == p && EditApplicationDate(p, text) == p
    ensures ChangeType(p, t) == p && SaveDraft(p, storageFull) == p
  {
  }

  /** The load on opening the page: take basic data, answers and status from
      the slot when it parses; otherwise leave the page as it is. */
  function Load(p: Page): (r: Page)
    ensures r.slot == p.slot
    ensures !(p.slot.Some? && p.slot.value.Saved?) ==> r == p
    ensures p.slot.Some? && p.slot.value.Saved? ==>
      r.basicInfo == p.slot.value.form.basicInfo && r.answers == p.slot.value.form.answers
      && r.status == p.slot.value.form.status
  {
    match p.slot
    case Some(Saved(form)) => p.(basicInfo := form.basicInfo, answers := form.answers, status := form.status)
    case _ => p
  }

  /** Opening the page: the initialisation runs on the starting answers
      (none), the load then replaces basic data, answers and status when the
      slot parses, and a loaded type other than the starting one runs the
      initialisation once more, on the loaded answers. */
  function Open(basic: BasicInfo, slot: Option<Stored>): (r: Page)
    ensures r.slot == slot
    ensures !(slot.Some? && slot.value.Saved?) ==>
      r == Page(basic, InitAnswers(QuestionsFor(basic.certificationType), []), Draft, slot)
    ensures slot.Some? && slot.value.Saved? ==>
      r.basicInfo == slot.value.form.basicInfo && r.status == slot.value.form.status
    ensures slot.Some? && slot.value.Saved? && slot.value.form.basicInfo.certificationType != basic.certificationType ==>
      r.answers == InitAnswers(QuestionsFor(r.basicInfo.certificationType), slot.value.form.answers)
    ensures slot.Some? && slot.value.Saved? && slot.value.form.basicInfo.certificationType == basic.certificationType ==>
      r.answers == slot.value.form.answers
  {
    var started := Page(basic, InitAnswers(QuestionsFor(basic.certificationType), []), Draft, slot);
    var loaded := Load(started);
    if loaded.basicInfo.certificationType == basic.certificationType then loaded
    else loaded.(answers := InitAnswers(QuestionsFor(loaded.basicInfo.certificationType), loaded.answers))
  }

  /** With nothing readable stored, the page opens on type 1 with one default
      answer for each of its sixteen questions. */
  lemma OpenWithoutSave(farmName: string, contactPerson: string, phone: string, email: string, today: string, slot: Option<Stored>)
    requires !(slot.Some? && slot.value.Saved?)
    ensures var r := Open(InitialBasicInfo(farmName, contactPerson, phone, email, today), slot);
      |r.answers| == 16 && r.status == Draft
      && forall i :: 0 <= i < 16 ==> r.answers[i] == DefaultAnswer(QuestionId(i + 1))
  {
    QuestionsForTypes1And2(Type1);
    var r := Open(InitialBasicInfo(farmName, contactPerson, phone, email, today), slot);
    forall i | 0 <= i < 16 ensures r.answers[i] == DefaultAnswer(QuestionId(i + 1)) {
      assert QuestionsFor(Type1)[i] == AllQuestions()[i] == Entry(i);
    }
  }

  /** Answers that are one per question of their type, in order. */
  predicate Initialised(p: Page) {
    p.answers == InitAnswers(QuestionsFor(p.basicInfo.certificationType), p.answers)
  }

  /** Reopening after a save restores the saved basic data and answers, as a
      draft, whatever the page started with. */
  lemma OpenAfterSave(p: Page, basic: BasicInfo)
    requires Initialised(p)
    ensures var r := Open(basic, SaveDraft(p, false).slot);
      p.status != Submitted ==> r.basicInfo == p.basicInfo && r.answers == p.answers && r.status == Draft
    ensures p.status == Submitted ==> SaveDraft(p, false).slot == p.slot
  {
    if p.status != Submitted {
      OpenDraftSlot(p, basic);
    }
  }

  /** Opening on a slot holding `p` as a draft gives back `p`'s data and
      answers. */
  lemma OpenDraftSlot(p: Page, basic: BasicInfo)
    requires Initialised(p)
    ensures var r := Open(basic, Some(Saved(StoredWith(p, Draft))));
      r.basicInfo == p.basicInfo && r.answers == p.answers && r.status == Draft
  {
  }

  /** Reopening after a completed submission shows the form as submitted. */
  lemma OpenAfterSubmit(p: Page, basic: BasicInfo)
    requires Initialised(p)
    requires SubmitEvaluation(p, true, false).result.Done?
    ensures var r := Open(basic, SubmitEvaluation(p, true, false).page.slot);
      r.status == Submitted && r.answers == p.answers
  {
  }

  /** Changing the type keeps the answers initialised. */
  lemma ChangeTypeKeepsInitialised(p: Page, t: CertificationType)
    requires Initialised(p)
    ensures Initialised(ChangeType(p, t))
  {
    if p.status != Submitted && t != p.basicInfo.certificationType {
      InitAnswersIdempotent(QuestionsFor(t), p.answers);
    }
  }
}

=== FILE: seqs.dfy ===
/** The list operations the components build from `Array.prototype.filter`,
    `includes` and array spreading, and the facts about them that the
    component models rely on. */
module Seqs {

  /** `s.filter(p)`: the elements of `s` satisfying `p`, in their original order. */
  function Filter<T(!new)>(s: seq<T>, p: T -> bool): (r: seq<T>)
    ensures |r| <= |s|
    ensures forall x :: x in r <==> x in s && p(x)
  {
    if |s| == 0 then [] else (if p(s[0]) then [s[0]] else []) + Filter(s[1..], p)
  }

  /** `a` can be obtained from `b` by deleting elements: `a` keeps the relative
      order of the elements it takes from `b`. */
  ghost predicate IsSubsequence<T>(a: seq<T>, b: seq<T>)
    decreases |b|
  {
    if |a| == 0 then true
    else if |b| == 0 then false
    else (a[0] == b[0] && IsSubsequence(a[1..], b[1..])) || IsSubsequence(a, b[1..])
  }

  lemma SubsequenceOfLonger<T>(a: seq<T>, x: T, b: seq<T>)
    requires IsSubsequence(a, b)
    ensures IsSubsequence(a, [x] + b)
  {
    assert ([x] + b)[1..] == b;
  }

  /** Filtering keeps the kept elements in their original order. */
  lemma {:induction false} FilterIsSubsequence<T(!new)>(s: seq<T>, p: T -> bool)
    ensures IsSubsequence(Filter(s, p), s)
    decreases |s|
  {
    if |s| > 0 {
      FilterIsSubsequence(s[1..], p);
      if p(s[0]) {
        assert Filter(s, p)[1..] == Filter(s[1..], p);
      } else {
        assert Filter(s, p) == Filter(s[1..], p);
        if |Filter(s, p)| > 0 {
          SubsequenceOfLonger(Filter(s, p), s[0], s[1..]);
          assert [s[0]] + s[1..] == s;
        }
      }
    }
  }

  /** A weaker filter keeps everything a stronger one keeps, in the same order. */
  lemma {:induction false} FilterMonotone<T(!new)>(s: seq<T>, p: T -> bool, q: T -> bool)
    requires forall x :: x in s && p(x) ==> q(x)
    ensures IsSubsequence(Filter(s, p), Filter(s, q))
    decreases |s|
  {
    if |s| > 0 {
      FilterMonotone(s[1..], p, q);
      var fp, fq := Filter(s[1..], p), Filter(s[1..], q);
      if p(s[0]) {
        assert Filter(s, p) == [s[0]] + fp && Filter(s, q) == [s[0]] + fq;
        assert Filter(s, p)[1..] == fp && Filter(s, q)[1..] == fq;
      } else if q(s[0]) {
        assert Filter(s, p) == fp && Filter(s, q) == [s[0]] + fq;
        if |fp| > 0 {
          SubsequenceOfLonger(fp, s[0], fq);
        }
      } else {
        assert Filter(s, p) == fp && Filter(s, q) == fq;
      }
    }
  }

  lemma {:induction false} FilterAppend<T(!new)>(a: seq<T>, b: seq<T>, p: T -> bool)
    ensures Filter(a + b, p) == Filter(a, p) + Filter(b, p)
    decreases |a|
  {
    if |a| > 0 {
      assert (a + b)[1..] == a[1..] + b;
      FilterAppend(a[1..], b, p);
    } else {
      assert a + b == b;
    }
  }

  /** Filtering one more element appends it when it passes. */
  lemma FilterSnoc<T(!new)>(s: seq<T>, i: nat, p: T -> bool)
    requires i < |s|
    ensures Filter(s[..i + 1], p) == Filter(s[..i], p) + (if p(s[i]) then [s[i]] else [])
  {
    assert s[..i + 1] == s[..i] + [s[i]];
    FilterAppend(s[..i], [s[i]], p);
  }

  /** A filter every element passes returns the list unchanged. */
  lemma {:induction false} FilterKeepsAll<T(!new)>(s: seq<T>, p: T -> bool)
    requires forall x :: x in s ==> p(x)
    ensures Filter(s, p) == s
    decreases |s|
  {
    if |s| > 0 {
      FilterKeepsAll(s[1..], p);
      assert [s[0]] + s[1..] == s;
    }
  }

  /** A filter no element passes returns the empty list. */
  lemma FilterDropsAll<T(!new)>(s: seq<T>, p: T -> bool)
    requires forall x :: x in s ==> !p(x)
    ensures Filter(s, p) == []
  {
  }

  /** A filter keeps everything exactly when every element passes it. */
  lemma {:induction false} FilterKeepsAllIff<T(!new)>(s: seq<T>, p: T -> bool)
    ensures |Filter(s, p)| == |s| <==> forall x :: x in s ==> p(x)
    decreases |s|
  {
    if |s| > 0 {
      FilterKeepsAllIff(s[1..], p);
      assert forall x :: x in s <==> x == s[0] || x in s[1..];
    }
  }

  /** A filter that passes exactly a prefix returns that prefix. */
  lemma {:induction false} FilterPrefix<T(!new)>(s: seq<T>, k: nat, p: T -> bool)
    requires k <= |s|
    requires forall i :: 0 <= i < k ==> p(s[i])
    requires forall i :: k <= i < |s| ==> !p(s[i])
    ensures Filter(s, p) == s[..k]
  {
    assert s == s[..k] + s[k..];
    FilterAppend(s[..k], s[k..], p);
    forall x | x in s[..k] ensures p(x) {
      var i :| 0 <= i < k && s[..k][i] == x;
    }
    forall x | x in s[k..] ensures !p(x) {
      var i :| 0 <= i < |s| - k && s[k..][i] == x;
      assert s[k + i] == x;
    }
    FilterKeepsAll(s[..k], p);
    FilterDropsAll(s[k..], p);
  }

  /** Filters that agree on every element of the list select the same elements. */
  lemma {:induction false} FilterExtensional<T(!new)>(s: seq<T>, p: T -> bool, q: T -> bool)
    requires forall x :: x in s ==> p(x) == q(x)
    ensures Filter(s, p) == Filter(s, q)
    decreases |s|
  {
    if |s| > 0 {
      FilterExtensional(s[1..], p, q);
    }
  }

  /** The elements a filter keeps and those it drops together are the list. */
  lemma {:induction false} FilterPartition<T(!new)>(s: seq<T>, p: T -> bool)
    ensures |Filter(s, p)| + |Filter(s, x => !p(x))| == |s|
    decreases |s|
  {
    if |s| > 0 {
      FilterPartition(s[1..], p);
    }
  }

  /** No element occurs twice. */
  predicate NoDup<T(==)>(s: seq<T>) {
    forall i, j :: 0 <= i < j < |s| ==> s[i] != s[j]
  }

  lemma {:induction false} FilterNoDup<T(!new)>(s: seq<T>, p: T -> bool)
    requires NoDup(s)
    ensures NoDup(Filter(s, p))
    decreases |s|
  {
    if |s| > 0 {
      assert NoDup(s[1..]);
      FilterNoDup(s[1..], p);
      assert s[0] !in s[1..];
    }
  }

  /** A list without repetitions has as many distinct elements as positions. */
  lemma {:induction false} DistinctSetSize<T>(s: seq<T>)
    requires NoDup(s)
    ensures |set x | x in s| == |s|
    decreases |s|
  {
    if |s| > 0 {
      var t := s[1..];
      assert NoDup(t);
      DistinctSetSize(t);
      assert (set x | x in s) == (set x | x in t) + {s[0]} by {
        assert forall x :: x in s <==> x == s[0] || x in t;
      }
      assert s[0] !in (set x | x in t);
    } else {
      assert (set x | x in s) == {};
    }
  }

  /** Filtering out `x` keeps every other element as often as it occurs. */
  lemma {:induction false} FilterOutCounts<T(!new)>(s: seq<T>, x: T)
    ensures multiset(Filter(s, y => y != x)) == multiset(s)[x := 0]
    decreases |s|
  {
    if |s| > 0 {
      assert s == [s[0]] + s[1..];
      FilterOutCounts(s[1..], x);
    }
  }

  /** `s.filter(i => i !== x)`: every occurrence of `x` removed, every other
      occurrence kept, in order. */
  function RemoveAll<T(==,!new)>(s: seq<T>, x: T): (r: seq<T>)
    ensures x !in r
    ensures forall y :: y != x ==> (y in r <==> y in s)
    ensures multiset(r) == multiset(s)[x := 0]
  {
    FilterOutCounts(s, x);
    Filter(s, y => y != x)
  }

  /** Removing an element keeps the others in their order. */
  lemma RemoveAllKeepsOrder<T(!new)>(s: seq<T>, x: T)
    ensures IsSubsequence(RemoveAll(s, x), s)
  {
    FilterIsSubsequence(s, y => y != x);
  }

  /** Removing an element that is absent changes nothing. */
  lemma RemoveAbsent<T(!new)>(s: seq<T>, x: T)
    requires x !in s
    ensures RemoveAll(s, x) == s
  {
    FilterKeepsAll(s, y => y != x);
  }

  /** `s.filter((_, index) => index !== i)`: position `i` removed, the others
      kept in order; an index outside the list removes nothing. */
  function RemoveAt<T>(s: seq<T>, i: int): (r: seq<T>)
    ensures 0 <= i < |s| ==> r == s[..i] + s[i + 1..]
    ensures !(0 <= i < |s|) ==> r == s
    decreases |s|
  {
    if |s| == 0 then []
    else (if i == 0 then [] else [s[0]]) + RemoveAt(s[1..], i - 1)
  }

  /** The toggle used by the applicant's multi-select lists: remove `x` when it
      is present, append it at the end when it is absent. */
  function Toggle<T(==,!new)>(s: seq<T>, x: T): (r: seq<T>)
    ensures x in r <==> x !in s
    ensures forall y :: y != x ==> (y in r <==> y in s)
  {
    if x in s then RemoveAll(s, x) else s + [x]
  }

  /** Toggling removes every occurrence of a present element and keeps the
      other elements in their order, or appends an absent element last. */
  lemma ToggleKeepsOrder<T(!new)>(s: seq<T>, x: T)
    ensures IsSubsequence(RemoveAll(s, x), s)
    ensures x in s ==> IsSubsequence(Toggle(s, x), s) && |Toggle(s, x)| < |s|
    ensures x in s ==> multiset(Toggle(s, x)) == multiset(s)[x := 0]
    ensures x !in s ==> Toggle(s, x)[..|s|] == s && Toggle(s, x)[|s|] == x
  {
    FilterIsSubsequence(s, y => y != x);
    if x in s {
      FilterPartition(s, y => y != x);
      var i :| 0 <= i < |s| && s[i] == x;
      assert s[i] in Filter(s, y => !(y != x));
    }
  }

  /** Toggling an absent element twice restores the list exactly. */
  lemma ToggleTwiceRestores<T(!new)>(s: seq<T>, x: T)
    requires x !in s
    ensures Toggle(Toggle(s, x), x) == s
  {
    FilterAppend(s, [x], y => y != x);
    RemoveAbsent(s, x);
    assert Filter([x], y => y != x) == [];
  }

  /** Toggling never introduces a duplicate. */
  lemma TogglePreservesNoDup<T(!new)>(s: seq<T>, x: T)
    requires NoDup(s)
    ensures NoDup(Toggle(s, x))
  {
    if x in s {
      FilterNoDup(s, y => y != x);
    }
  }
}

=== FILE: web.dfy ===
/** Values and operations of the browser platform that the application's
    components rely on: optional values, JavaScript numbers with `parseFloat`,
    `+`, `||` and `toFixed(1)`, the string methods `trim`, `includes` and
    `startsWith`, and `File` objects.

    JavaScript numbers are modelled without IEEE rounding: a finite number is an
    exact `real`. NaN and the two infinities are kept as separate values because
    the components compare parsed user input against bounds, and those
    comparisons treat NaN and the infinities differently from finite values. */
module Web {

  datatype Option<+T> = None | Some(value: T) {
    /** The wrapped value, or `default` when there is none. */
    function GetOr(default: T): T {
      match this
      case Some(v) => v
      case None => default
    }
  }

  /** A JavaScript number. */
  datatype Number = NaN | Infinity(negative: bool) | Finite(value: real)

  /** JavaScript `-n`. */
  function Negate(n: Number): Number {
    match n
    case NaN => NaN
    case Infinity(neg) => Infinity(!neg)
    case Finite(v) => Finite(-v)
  }

  /** JavaScript `a + b` on numbers. */
  function Add(a: Number, b: Number): Number {
    match (a, b)
    case (NaN, _) => NaN
    case (_, NaN) => NaN
    case (Infinity(x), Infinity(y)) => if x == y then a else NaN
    case (Infinity(_), Finite(_)) => a
    case (Finite(_), Infinity(_)) => b
    case (Finite(x), Finite(y)) => Finite(x + y)
  }

  /** Without rounding, number addition is commutative and associative, so a sum
      does not depend on the order in which an object's values are visited. */
  lemma AddCommutesAndAssociates(a: Number, b: Number, c: Number)
    ensures Add(a, b) == Add(b, a)
    ensures Add(Add(a, b), c) == Add(a, Add(b, c))
  {
  }

  /** JavaScript `n || 0`: NaN (and zero) are falsy and give 0. */
  function Or0(n: Number): (r: Number)
    ensures r.NaN? == false
    ensures n.NaN? ==> r == Finite(0.0)
    ensures !n.NaN? ==> r == n
  {
    if n.NaN? then Finite(0.0) else n
  }

  /** JavaScript `lo <= n && n <= hi`: false for NaN and for both infinities. */
  predicate InRange(n: Number, lo: real, hi: real) {
    n.Finite? && lo <= n.value <= hi
  }

  // ---------------------------------------------------------------- strings

  /** The characters `String.prototype.trim` and `parseFloat` skip: the
      ECMAScript WhiteSpace and LineTerminator code points. */
  predicate IsSpace(c: char) {
    var n := c as int;
    n == 0x09 || n == 0x0A || n == 0x0B || n == 0x0C || n == 0x0D || n == 0x20
    || n == 0xA0 || n == 0x1680 || (0x2000 <= n <= 0x200A) || n == 0x2028
    || n == 0x2029 || n == 0x202F || n == 0x205F || n == 0x3000 || n == 0xFEFF
  }

  /** A string made of white space only (the empty string included). */
  predicate Blank(s: string) {
    forall i :: 0 <= i < |s| ==> IsSpace(s[i])
  }

  /** `s.trimStart()`: the longest suffix of `s` that does not start with white space. */
  function TrimStart(s: string): (r: string)
    ensures |r| <= |s| && r == s[|s| - |r|..]
    ensures forall i :: 0 <= i < |s| - |r| ==> IsSpace(s[i])
    ensures |r| == 0 || !IsSpace(r[0])
  {
    if |s| > 0 && IsSpace(s[0]) then TrimStart(s[1..]) else s
  }

  /** `s.trimEnd()`: the longest prefix of `s` that does not end with white space. */
  function TrimEnd(s: string): (r: string)
    ensures |r| <= |s| && r == s[..|r|]
    ensures forall i :: |r| <= i < |s| ==> IsSpace(s[i])
    ensures |r| == 0 || !IsSpace(r[|r| - 1])
  {
    if |s| > 0 && IsSpace(s[|s| - 1]) then TrimEnd(s[..|s| - 1]) else s
  }

  /** `s.trim()`. */
  function Trim(s: string): string {
    TrimEnd(TrimStart(s))
  }

  lemma {:induction false} TrimStartEmptyIffBlank(s: string)
    ensures TrimStart(s) == "" <==> Blank(s)
  {
    if |s| > 0 && IsSpace(s[0]) {
      TrimStartEmptyIffBlank(s[1..]);
      assert Blank(s) <==> Blank(s[1..]) by {
        if Blank(s[1..]) {
          forall i | 0 <= i < |s| ensures IsSpace(s[i]) {
            if i > 0 { assert s[i] == s[1..][i - 1]; }
          }
        }
      }
    }
  }

  /** `s.trim()` is the empty (falsy) string exactly when `s` is blank. */
  lemma TrimEmptyIffBlank(s: string)
    ensures Trim(s) == "" <==> Blank(s)
  {
    var t := TrimStart(s);
    TrimStartEmptyIffBlank(s);
    if |t| > 0 {
      assert !IsSpace(t[0]);
      assert |TrimEnd(t)| > 0;
    }
  }

  /** `s.startsWith(p)`. */
  predicate StartsWith(s: string, p: string) {
    p <= s
  }

  /** `s.includes(sub)`, scanning the start positions left to right. */
  predicate Includes(s: string, sub: string)
    decreases |s|
  {
    if |sub| > |s| then false
    else if sub <= s then true
    else Includes(s[1..], sub)
  }

  /** `sub` occurs in `s` starting at position `i`. */
  predicate OccursAt(s: string, sub: string, i: int) {
    0 <= i && i + |sub| <= |s| && s[i..i + |sub|] == sub
  }

  /** `s.includes(sub)` holds exactly when `sub` occurs in `s` at some position. */
  lemma {:induction false} IncludesIffOccurs(s: string, sub: string)
    ensures Includes(s, sub) <==> exists i :: OccursAt(s, sub, i)
    decreases |s|
  {
    if |sub| > |s| {
    } else if sub <= s {
      assert s[0..|sub|] == sub;
      assert OccursAt(s, sub, 0);
    } else {
      assert s[0..|sub|] != sub;
      IncludesIffOccurs(s[1..], sub);
      if Includes(s[1..], sub) {
        var j :| OccursAt(s[1..], sub, j);
        assert s[j + 1..j + 1 + |sub|] == s[1..][j..j + |sub|];
        assert OccursAt(s, sub, j + 1);
      } else {
        forall i | 0 <= i && i + |sub| <= |s|
          ensures !OccursAt(s, sub, i)
        {
          if i > 0 {
            SliceOfTail(s, i, |sub|);
            assert !OccursAt(s[1..], sub, i - 1);
          }
        }
      }
    }
  }

  lemma SliceOfTail(s: string, i: nat, n: nat)
    requires 1 <= i && i + n <= |s|
    ensures s[i..i + n] == s[1..][i - 1..i - 1 + n]
  {
  }

  // ---------------------------------------------------------------- parseFloat

  predicate IsDigit(c: char) {
    '0' <= c <= '9'
  }

  predicate AllDigits(s: string) {
    forall i :: 0 <= i < |s| ==> IsDigit(s[i])
  }

  /** The length of the run of decimal digits at the start of `s`. */
  function DigitRun(s: string): (n: nat)
    ensures n <= |s| && AllDigits(s[..n])
    ensures n < |s| ==> !IsDigit(s[n])
  {
    if |s| > 0 && IsDigit(s[0]) then 1 + DigitRun(s[1..]) else 0
  }

  /** The value of a string of decimal digits, most significant first. */
  function DigitsValue(d: string): nat
    requires AllDigits(d)
  {
    if |d| == 0 then 0 else DigitsValue(d[..|d| - 1]) * 10 + (d[|d| - 1] as int - '0' as int)
  }

  function Pow10(n: nat): (r: nat)
    ensures r >= 1
  {
    if n == 0 then 1 else 10 * Pow10(n - 1)
  }

  /** `x` times ten to the power `e`, one decimal place at a time. */
  function Shift(x: real, e: int): real
    decreases if e >= 0 then e else -e
  {
    if e == 0 then x
    else if e > 0 then Shift(x * 10.0, e - 1)
    else Shift(x / 10.0, e + 1)
  }

  /** Shifting down by `n` places divides by `10^n`. */
  lemma {:induction false} ShiftDown(x: real, n: nat)
    ensures Shift(x, -(n as int)) == x / Pow10(n) as real
    decreases n
  {
    if n > 0 {
      ShiftDown(x / 10.0, n - 1);
      var p := Pow10(n - 1) as real;
      assert Pow10(n) as real == 10.0 * p;
      assert (x / 10.0) / p == x / (10.0 * p);
    }
  }

  /** The exponent written by an exponent part `e[+-]digits` at the start of
      `t`, or 0 when `t` does not start with a complete exponent part. */
  function ExponentOf(t: string): int {
    if |t| >= 2 && (t[0] == 'e' || t[0] == 'E') then
      if t[1] == '+' || t[1] == '-' then
        var n := DigitRun(t[2..]);
        if n == 0 then 0
        else if t[1] == '-' then -(DigitsValue(t[2..][..n]) as int)
        else DigitsValue(t[2..][..n])
      else
        var n := DigitRun(t[1..]);
        if n == 0 then 0 else DigitsValue(t[1..][..n])
    else 0
  }

  /** A decimal literal as `parseFloat` reads it: integer digits, fraction
      digits and the exponent. */
  datatype Decimal = Decimal(whole: string, fraction: string, exponent: int)

  /** The exact value of a decimal literal. */
  function DecimalValue(d: Decimal): real
    requires AllDigits(d.whole) && AllDigits(d.fraction)
  {
    AllDigitsAppend(d.whole, d.fraction);
    Shift(DigitsValue(d.whole + d.fraction) as real, d.exponent - |d.fraction|)
  }

  /** The longest decimal literal at the start of `t`, if any: digits, then
      optionally `.` and digits, at least one digit in all, then an optional
      exponent part. */
  function ScanDecimal(t: string): (r: Option<Decimal>)
    ensures r.Some? ==> AllDigits(r.value.whole) && AllDigits(r.value.fraction)
  {
    var i := DigitRun(t);
    var rest := t[i..];
    if |rest| > 0 && rest[0] == '.' then
      var f := DigitRun(rest[1..]);
      if i == 0 && f == 0 then None
      else Some(Decimal(t[..i], rest[1..][..f], ExponentOf(rest[1..][f..])))
    else if i == 0 then None
    else Some(Decimal(t[..i], "", ExponentOf(rest)))
  }

  /** `parseFloat` on text without a sign: `Infinity`, or the value of the
      longest decimal literal at its start, or NaN. */
  function ParseUnsigned(t: string): Number {
    if StartsWith(t, "Infinity") then Infinity(false)
    else
      match ScanDecimal(t)
      case None => NaN
      case Some(d) => Finite(DecimalValue(d))
  }

  /** JavaScript `parseFloat(s)`: skips leading white space, reads an optional
      sign and then the longest numeric prefix; NaN when there is none. */
  function ParseFloat(s: string): Number {
    var t := TrimStart(s);
    if |t| > 0 && t[0] == '-' then Negate(ParseUnsigned(t[1..]))
    else if |t| > 0 && t[0] == '+' then ParseUnsigned(t[1..])
    else ParseUnsigned(t)
  }

  /** Text that `parseFloat` reads a number from, once white space and sign are gone. */
  predicate StartsNumeric(t: string) {
    StartsWith(t, "Infinity")
    || (|t| > 0 && IsDigit(t[0]))
    || (|t| > 1 && t[0] == '.' && IsDigit(t[1]))
  }

  lemma ScanDecimalNoneIff(u: string)
    ensures ScanDecimal(u).None? <==> !((|u| > 0 && IsDigit(u[0])) || (|u| > 1 && u[0] == '.' && IsDigit(u[1])))
  {
    var i := DigitRun(u);
    if |u| > 0 && IsDigit(u[0]) {
      assert i > 0;
    } else {
      assert i == 0;
      assert u[i..] == u;
      if |u| > 1 && u[0] == '.' {
        assert u[1..][0] == u[1];
        assert IsDigit(u[1]) <==> DigitRun(u[1..]) > 0;
      }
    }
  }

  /** `parseFloat` is NaN exactly when no number starts the text after white
      space and an optional sign. */
  lemma ParseFloatNaNIff(s: string)
    ensures ParseFloat(s).NaN? <==>
      var t := TrimStart(s);
      var u := if |t| > 0 && (t[0] == '-' || t[0] == '+') then t[1..] else t;
      !StartsNumeric(u)
  {
    var t := TrimStart(s);
    var u := if |t| > 0 && (t[0] == '-' || t[0] == '+') then t[1..] else t;
    assert ParseUnsigned(u).NaN? == ParseFloat(s).NaN?;
    ScanDecimalNoneIff(u);
  }

  // ---------------------------------------------------------------- toFixed

  function DigitChar(d: nat): (c: char)
    requires d < 10
    ensures IsDigit(c) && c as int - '0' as int == d
  {
    ('0' as int + d) as char
  }

  /** The decimal numeral of `n`, without leading zeros. */
  function NatToString(n: nat): (r: string)
    ensures |r| > 0 && AllDigits(r)
  {
    if n < 10 then [DigitChar(n)] else NatToString(n / 10) + [DigitChar(n % 10)]
  }

  lemma {:induction false} NatToStringValue(n: nat)
    ensures DigitsValue(NatToString(n)) == n
  {
    var r := NatToString(n);
    if n >= 10 {
      NatToStringValue(n / 10);
      assert r[..|r| - 1] == NatToString(n / 10);
    }
  }

  /** `(tenths / 10).toFixed(1)`: a number with one decimal, as produced for a
      slider value that moves in steps of 0.1. */
  function ToFixed1(tenths: nat): string {
    NatToString(tenths / 10) + "." + [DigitChar(tenths % 10)]
  }

  lemma {:induction false} DigitRunOfDigitsThen(w: string, rest: string)
    requires AllDigits(w)
    requires |rest| == 0 || !IsDigit(rest[0])
    ensures DigitRun(w + rest) == |w|
  {
    if |w| > 0 {
      assert (w + rest)[1..] == w[1..] + rest;
      DigitRunOfDigitsThen(w[1..], rest);
    } else {
      assert w + rest == rest;
    }
  }

  lemma ScanPlainDecimal(w: string, d: string)
    requires |w| > 0 && AllDigits(w)
    requires |d| > 0 && AllDigits(d)
    ensures ScanDecimal(w + "." + d) == Some(Decimal(w, d, 0))
  {
    var s := w + "." + d;
    DigitRunOfDigitsThen(w, "." + d);
    assert s == w + ("." + d);
    assert s[..|w|] == w;
    assert s[|w|..] == "." + d;
    assert ("." + d)[1..] == d;
    DigitRunOfDigitsThen(d, "");
    assert d + "" == d;
    assert d[..|d|] == d;
    assert ExponentOf(d[|d|..]) == 0;
  }

  lemma ParseFloatUnsignedText(s: string)
    requires |s| > 0 && !IsSpace(s[0]) && s[0] != '-' && s[0] != '+'
    ensures ParseFloat(s) == ParseUnsigned(s)
  {
    assert TrimStart(s) == s;
  }

  /** `parseFloat` of a plain decimal `w.d` is its exact value. */
  lemma ParseDecimal(w: string, d: string)
    requires |w| > 0 && AllDigits(w)
    requires |d| > 0 && AllDigits(d)
    ensures ParseFloat(w + "." + d) == Finite(DigitsValue(w + d) as real / Pow10(|d|) as real)
  {
    var s := w + "." + d;
    assert s[0] == w[0];
    ParseFloatUnsignedText(s);
    assert !StartsWith(s, "Infinity") by {
      assert IsDigit(s[0]) && !IsDigit("Infinity"[0]);
    }
    ScanPlainDecimal(w, d);
    DecimalValueWithoutExponent(w, d);
    assert ParseUnsigned(s) == Finite(DecimalValue(Decimal(w, d, 0)));
  }

  lemma DecimalValueWithoutExponent(w: string, d: string)
    requires AllDigits(w) && AllDigits(d)
    ensures DecimalValue(Decimal(w, d, 0)) == DigitsValue(w + d) as real / Pow10(|d|) as real
  {
    AllDigitsAppend(w, d);
    ShiftDown(DigitsValue(w + d) as real, |d|);
  }

  lemma AllDigitsAppend(a: string, b: string)
    requires AllDigits(a) && AllDigits(b)
    ensures AllDigits(a + b)
  {
    forall i | 0 <= i < |a + b| ensures IsDigit((a + b)[i]) {
      if i < |a| {
        assert (a + b)[i] == a[i];
      } else {
        assert (a + b)[i] == b[i - |a|];
      }
    }
  }

  lemma DigitsValueAppend(w: string, c: char)
    requires AllDigits(w) && IsDigit(c)
    ensures AllDigits(w + [c])
    ensures DigitsValue(w + [c]) == DigitsValue(w) * 10 + (c as int - '0' as int)
  {
    var all := w + [c];
    assert all[..|all| - 1] == w;
  }

  /** The digits `toFixed(1)` writes, without the point, spell the number of tenths. */
  lemma ToFixed1Digits(tenths: nat)
    ensures AllDigits(NatToString(tenths / 10) + [DigitChar(tenths % 10)])
    ensures DigitsValue(NatToString(tenths / 10) + [DigitChar(tenths % 10)]) == tenths
  {
    NatToStringValue(tenths / 10);
    DigitsValueAppend(NatToString(tenths / 10), DigitChar(tenths % 10));
  }

  lemma TenthsValue(tenths: nat, v: nat, p: nat)
    requires v == tenths && p == 10
    ensures Finite(v as real / p as real) == Finite(tenths as real / 10.0)
  {
  }

  lemma ParseToFixed1(tenths: nat)
    ensures ParseFloat(ToFixed1(tenths)) == Finite(tenths as real / 10.0)
  {
    var whole, c := NatToString(tenths / 10), DigitChar(tenths % 10);
    var s := whole + "." + [c];
    assert ToFixed1(tenths) == s;
    ParseDecimal(whole, [c]);
    ToFixed1Digits(tenths);
    assert Pow10(|[c]|) == 10 by {
      assert |[c]| == 1;
      assert Pow10(1) == 10 * Pow10(0);
    }
    TenthsValue(tenths, DigitsValue(whole + [c]), Pow10(|[c]|));
  }
  // ---------------------------------------------------------------- scores

  /** The score-text validation shared by the applicant form and the review
      page: `s === "" || (parseFloat(s) >= 0 && parseFloat(s) <= 5)`. */
  predicate IsScoreText(s: string) {
    s == "" || InRange(ParseFloat(s), 0.0, 5.0)
  }

  /** Every value a 0..5 slider with step 0.1 produces passes the score-text
      validation once formatted with `toFixed(1)`. */
  lemma SliderTextIsScoreText(tenths: nat)
    requires tenths <= 50
    ensures IsScoreText(ToFixed1(tenths))
    ensures ToFixed1(tenths) != ""
  {
    ParseToFixed1(tenths);
  }

  /** Some key of a non-empty map. */
  ghost function AnyKey<K, V>(m: map<K, V>): (k: K)
    requires |m| > 0
    ensures k in m
  {
    assert |m.Keys| > 0;
    var k :| k in m.Keys; k
  }

  lemma RemoveKeySize<K, V>(m: map<K, V>, k: K)
    requires k in m
    ensures |m - {k}| == |m| - 1
  {
    assert (m - {k}).Keys == m.Keys - {k};
  }

  /** The sum, with JavaScript `+`, of `f` over the values of `m`. Object keys
      are visited in an order the model leaves open; `SumRemove` shows that the
      order does not change the sum. */
  ghost function Sum<K, V>(m: map<K, V>, f: V -> Number): Number
    decreases |m|
  {
    if |m| == 0 then Finite(0.0)
    else
      var k := AnyKey(m);
      RemoveKeySize(m, k);
      Add(Sum(m - {k}, f), f(m[k]))
  }

  /** Summing values that each lie in [0, hi] gives a finite total in [0, hi * |m|]. */
  lemma {:induction false} SumBounded<K, V>(m: map<K, V>, f: V -> Number, hi: real)
    requires forall k :: k in m ==> InRange(f(m[k]), 0.0, hi)
    ensures InRange(Sum(m, f), 0.0, hi * |m| as real)
    decreases |m|
  {
    if |m| != 0 {
      var k := AnyKey(m);
      var rest := m - {k};
      RemoveKeySize(m, k);
      SumBounded(rest, f, hi);
      var a := Sum(rest, f).value;
      var b := f(m[k]).value;
      assert Sum(m, f) == Add(Finite(a), Finite(b));
      var n := |rest| as real;
      assert |m| as real == n + 1.0;
      assert hi * (n + 1.0) == hi * n + hi;
    }
  }

  /** Scores of at most five points each sum to at most five points per
      entry. */
  lemma ScoresSumBounded<K, V>(m: map<K, V>, points: V -> Number)
    requires forall k :: k in m ==> InRange(points(m[k]), 0.0, 5.0)
    ensures InRange(Sum(m, points), 0.0, 5.0 * |m| as real)
  {
    SumBounded(m, points, 5.0);
  }

  /** Any entry can be taken out of the sum last: whichever key the sum visits
      first, removing key `j` and adding its number back gives the same total. */
  lemma {:induction false} SumRemove<K, V>(m: map<K, V>, j: K, f: V -> Number)
    requires j in m
    ensures Sum(m, f) == Add(Sum(m - {j}, f), f(m[j]))
    decreases |m|
  {
    assert j in m.Keys;
    var a := AnyKey(m);
    if a != j {
      RemoveKeySize(m, a);
      RemoveKeySize(m, j);
      var rest := m - {a} - {j};
      assert m - {j} - {a} == rest;
      SumRemove(m - {a}, j, f);
      SumRemove(m - {j}, a, f);
      var s, fa, fj := Sum(rest, f), f(m[a]), f(m[j]);
      AddCommutesAndAssociates(s, fj, fa);
      AddCommutesAndAssociates(s, fa, fj);
      AddCommutesAndAssociates(fj, fa, s);
    }
  }

  /** Storing `v` under `k` replaces `k`'s number in the sum by `f(v)`; for a
      new key the sum grows by `f(v)`. */
  lemma SumPut<K, V>(m: map<K, V>, k: K, v: V, f: V -> Number)
    ensures Sum(m[k := v], f) == Add(Sum(m - {k}, f), f(v))
    ensures k !in m ==> Sum(m[k := v], f) == Add(Sum(m, f), f(v))
  {
    SumRemove(m[k := v], k, f);
    assert m[k := v] - {k} == m - {k};
    if k !in m {
      assert m - {k} == m;
    }
  }

  /** The sum over a single entry is that entry's number. */
  lemma SumSingleton<K, V>(k: K, v: V, f: V -> Number)
    requires f(v).Finite?
    ensures Sum(map[k := v], f) == f(v)
  {
    var m := map[k := v];
    assert AnyKey(m) == k;
    assert m - {k} == map[];
  }

  // ---------------------------------------------------------------- files

  /** A browser `File`: its name, MIME type and size in bytes; contents are not modelled. */
  datatype File = File(name: string, mimeType: string, size: nat)

  /** `file.type.startsWith('image/')`. */
  predicate IsImage(f: File) {
    StartsWith(f.mimeType, "image/")
  }
}
